=== FILE: README.md ===
# SSHKit host specifications in Dafny

A model of `SSHKit::Host` (lib/sshkit/host.rb). This is the value object that turns a
host string such as `deploy@example.com:2222` or `[fe80::1]:2222`, or an options
`Hash`, into a user, a host name and a port. It also carries the password, the keys
and a lazily created properties bag.

The model follows the code:

- **Parser choice.** `Host#initialize` keeps the parsers whose `suitable?` accepts
  the string, from a fixed list of six entries, and uses the first one kept.
  - host.rb opens `HostWithUsernameAndPortParser` twice. The second `class` keyword
    reopens the same class, and its methods replace those of the first. So the
    third and the sixth list entries are the same parser, the one of
    host.rb:196-209, and there are five parsers, not six.
    `ParserProperties.LastEntryIsRedundant` proves that the sixth entry never
    changes the outcome.
- **Regular expressions.** Each one is a predicate over the string, and each
  reading is proved equal to the literal pattern where that is not obvious.
  - `[:|@]` and `[@|\[|\]]` are character classes, so `|` in them is a literal.
  - `@.*:\d+` cannot cross a newline.
  - `[a-fA-F0-9:]+:\d+` needs one hex digit or colon, a `:` and a decimal digit.
- **`String#split`** is its Ruby behaviour: leading empty fields are kept,
  trailing ones are dropped, and `""` splits to `[]`. `Array#first`, `last`, `[i]`
  and `[0..-2]` return `nil` or `[]` past the end.
- **`String#to_i`** skips leading white space, reads an optional sign and then
  digits with single underscores between them. It gives 0 when there are none.
- **`HostWithPortParser` takes the text before the first `:`** as the host name,
  as `split(':').first` does. It does not take the text before the last one.
- **The IPv6 parser's `hostname` calls `gsub!`.** It deletes the brackets from the
  caller's own string, and `port` then reads the stripped string.
  `HostParsers.Parse` returns that string beside the attributes.
- **Options `Hash`.** Each entry goes through its setter, in order, so a later
  entry overrides an earlier one. The first key with no setter raises. No
  default is filled in: the port stays `nil`.
- **`hash` and `eql?`.** `hash` XORs the hashes of user, host name and port.
  `eql?`, `==` and `equal?` compare hashes only.
- **`to_s`** is `user@host:port`. It parses back to the same user, host and port
  when the user and host name are strings holding no `:` or `@`, the host name
  holds no newline, and the port is an `Integer` of at least 0. A newline in the
  host name hides the `@` from `@.*:\d+`, and `u@h:-1` is unparsable. An IPv6 host
  name is split again on its colons, so it does not round-trip.

Outside inputs are parameters:
- `login` stands for `Etc.getlogin`, which may be `nil`.
- `hash: Value -> bv64` stands for Ruby's per-process seeded `Object#hash`. Every
  equality property is proved for all such functions.

Modules:
- `Wrappers`: `Option` and `Result`.
- `RubyString`: `split`, `join`, `gsub!` on a character class, `to_i`, and the
  decimal rendering of `%d`, with their algebra.
- `HostParsers`: the parsers, their tests and readers, and the choice among them.
- `ParserProperties`: the dispatch and what each parser yields.
- `Hosts`: the host's fields, the options path, `hash`, `eql?`, `to_s`,
  `netssh_options` and `properties`.
- `HostProperties`: the round trip, equality and options properties.
- `BracketedIPv6`: bracketed addresses with a port, as written and corrected.
- `HostScenarios`: example host strings and options, each proved for any parts of its
  shape first.

## Model

| member | source | states |
|---|---|---|
| RubyString.SplitFields | lib/sshkit/host.rb:201-207 | No field of a `split` holds a separator, the last field is never empty, and the result is `[]` exactly when the string is all separators |
| RubyString.FieldsAppend | lib/sshkit/host.rb:201-207 | `Fields`, the pieces of a split before trailing empty pieces are dropped, of `a`, a separator and `b` are the `Fields` of `a` followed by the `Fields` of `b` |
| RubyString.FieldsOfPlain | lib/sshkit/host.rb:152-156 | The `Fields` of a string with no separator, the empty string included, are that string alone |
| RubyString.FirstField | lib/sshkit/host.rb:156 | The first field is a prefix of the string followed by a separator, or the whole string |
| RubyString.JoinFields | lib/sshkit/host.rb:175 | Joining with a character the `Fields` of a split on that character alone (the pieces before trailing empty pieces are dropped) gives the string back |
| RubyString.SplitJoin | lib/sshkit/host.rb:175 | `split` loses only trailing separators: the joined fields are a prefix and the rest is all separators |
| RubyString.DeleteCharsAppend | lib/sshkit/host.rb:174 | Deleting a character class distributes over concatenation |
| RubyString.DeleteCharsNoop | lib/sshkit/host.rb:174 | Deleting a class of characters the string lacks leaves it unchanged |
| RubyString.KeptNeighbours | lib/sshkit/host.rb:174 | Two adjacent characters outside the deleted class stay adjacent after `gsub!` |
| RubyString.ToIOfDecimal | lib/sshkit/host.rb:75 | `to_i` of what `%d` prints is the integer printed, negative ones included |
| RubyString.ToIOfNat | lib/sshkit/host.rb:207 | `to_i` of a natural number's decimal digits is that number |
| HostParsers.SelectSuitable | lib/sshkit/host.rb:27-36 | `select` keeps exactly the suitable parsers, and its first element is the first suitable list entry |
| ParserProperties.ChooseParserIsFirstSuitable | lib/sshkit/host.rb:27-40 | The parser used is `p` if and only if `p` is suitable and no parser earlier in the list is |
| ParserProperties.ChosenIsSuitable | lib/sshkit/host.rb:34-39 | The parser used accepts the string |
| ParserProperties.UnparsableIffNoneSuitable | lib/sshkit/host.rb:38-44 | Parsing fails if and only if no parser is suitable, and the error carries the input |
| ParserProperties.MessagesNameTheInput | lib/sshkit/host.rb:43-50 | Each error message ends with the host string or key at fault, and an unparsable-string message never equals an unknown-property one |
| ParserProperties.SelectSuitableAppend | lib/sshkit/host.rb:27-36 | Selecting from two lists joined is selecting from each in turn |
| ParserProperties.LastEntryIsRedundant | lib/sshkit/host.rb:27-33 | Dropping the sixth list entry never changes the parser used |
| ParserProperties.PatternsNeedSeparators | lib/sshkit/host.rb:196-199 | The user-host-port test needs an `@` and a `:` in the string, and the IPv6 test needs a `:` |
| ParserProperties.HostStringChangedOnlyByIPv6 | lib/sshkit/host.rb:172-175 | After parsing, the caller's string is unchanged unless the IPv6 parser ran, which deletes its brackets |
| ParserProperties.MatchUserHostPort | lib/sshkit/host.rb:197-199 | A single left-to-right scan finds a match of `@.*:\d+` exactly when the suitability predicate holds |
| ParserProperties.IPv6PatternNeedsOneCharacter | lib/sshkit/host.rb:164-166 | `[a-fA-F0-9:]+:\d+` matches exactly when one hex digit or colon, a `:` and a digit occur in a row |
| ParserProperties.ParseSimple | lib/sshkit/host.rb:95-119 | A string without a colon, a pipe or an at sign gives the login name, the string itself and port 22 |
| ParserProperties.ParseHostWithPort | lib/sshkit/host.rb:145-157 | Without an at sign, a pipe or brackets, the host is the text before the first `:` and the port is `to_i` of the last field |
| ParserProperties.UserHostPortFields | lib/sshkit/host.rb:200-208 | A string with a user-host-port match splits on `:` and `@` into at least three fields |
| ParserProperties.ParseHostWithUsernameAndPort | lib/sshkit/host.rb:196-209 | When the user-host-port test holds, that parser is used, and user, host and port are the first three fields on `:` and `@` |
| ParserProperties.IPv6Fields | lib/sshkit/host.rb:164-175 | The IPv6 parser's stripped string splits on `:` into at least two fields |
| ParserProperties.AllButLastField | lib/sshkit/host.rb:175 | All `:`-fields but the last, joined, come before the last field in the string |
| ParserProperties.IPv6HostWithPortChosen | lib/sshkit/host.rb:27-36 | The IPv6 parser is used if and only if its test holds and the three earlier tests fail |
| ParserProperties.ParseIPv6HostWithPort | lib/sshkit/host.rb:162-176 | The IPv6 parser's host name holds no bracket, precedes `:` and the port field in the stripped string, and the string returned is the stripped one |
| ParserProperties.IPv6Hostname | lib/sshkit/host.rb:172-175 | The stripped host name and the last field rebuild a prefix of the stripped string, with only colons after it |
| ParserProperties.ParseHostWithUsername | lib/sshkit/host.rb:181-191 | With an `@` and no `:`, the user is the first `@`-field, the host the last one, and the port 22 |
| Hosts.ApplyOptions | lib/sshkit/host.rb:46-52 | Applying an options `Hash` fails exactly when some key has no setter, and the error names the first such key |
| HostProperties.SplitCanonical | lib/sshkit/host.rb:201-207 | `user@host:port` splits on `:` and `@` into exactly its three parts |
| HostProperties.UserHostPortParses | lib/sshkit/host.rb:196-208 | `user@host:digits` builds a host with that user, host name and port |
| HostProperties.ToSParsesBack | lib/sshkit/host.rb:74-76 | Parsing `to_s` picks the user-host-port parser and rebuilds a host with the same user, host name and port |
| HostProperties.EqlIgnoresCredentials | lib/sshkit/host.rb:56-68 | Hosts agreeing on user, host name and port are equal whatever their password and keys |
| HostProperties.EqlIsEquivalence | lib/sshkit/host.rb:64-68 | `eql?` is reflexive, symmetric and transitive |
| HostProperties.SwappedHostsAreEql | lib/sshkit/host.rb:56-58 | Swapping user and host name keeps the hash under every hash function |
| HostProperties.SameUserAndHostnameCancel | lib/sshkit/host.rb:56-58 | A host whose user equals its host name hashes like its port alone, so two such hosts with one port are equal |
| HostProperties.SwappedHostStringsCompareEqual | lib/sshkit/host.rb:56-68 | `alice@bob:22` and `bob@alice:22` are different hosts that compare equal |
| HostProperties.IdentityEqlKeepsHashContract | lib/sshkit/host.rb:56-68 | Comparing user, host name and port is an equivalence that implies equal hashes and tells a host from its swapped twin |
| HostProperties.OptionsLastEntryWins | lib/sshkit/host.rb:46-52 | Each field gets the value of the last entry naming it, and the keys come from the last `key` or `keys` entry |
| HostProperties.NewHostFromOptions | lib/sshkit/host.rb:45-53 | A host built from options gets no defaults, and its SSH options are those of the last entries |
| HostProperties.KeySetters | lib/sshkit/host.rb:12-22 | `key=` gives a one-element key list; `keys=` takes an array as is, `nil` as none, and wraps any other value; both change only `@keys`, and giving `keys=` what `keys` returned leaves the keys as they were |
| HostProperties.NetsshOptionsOfParsedHost | lib/sshkit/host.rb:78-85 | A host parsed from a string hands the SSH library no keys, no password, and the parsed user and port |
| Hosts.Host.Properties | lib/sshkit/host.rb:87-89 | The first read creates a fresh empty bag and keeps it; every later read returns that same bag, and the host's fields stay as they were |
| Hosts.PropertiesTwice | lib/sshkit/host.rb:87-89 | Reading `properties` twice gives the same bag |
| Hosts.PropertiesOfTwoHosts | lib/sshkit/host.rb:87-89 | Two hosts get two distinct, empty bags |
| BracketedIPv6.ChooseParserCorrectedIsFirstSuitable | lib/sshkit/host.rb:27-40 | With the corrected IPv6 test the parser used is still the first suitable one in list order |
| BracketedIPv6.CorrectionOnlyAdds | lib/sshkit/host.rb:164-166 | The corrected test changes nothing for strings that already parsed |
| BracketedIPv6.BracketsDeleted | lib/sshkit/host.rb:174 | Deleting the brackets from `[v]:d` leaves `v:d` |
| BracketedIPv6.PortFieldLast | lib/sshkit/host.rb:168-170 | The `:`-fields of `v:d` are those of `v` followed by `d` |
| BracketedIPv6.BracketedAttributes | lib/sshkit/host.rb:168-175 | The IPv6 parser reads `[v]:d` as host `v` and port `d`, leaving `v:d` behind |
| BracketedIPv6.BracketedAddressAsWritten | lib/sshkit/host.rb:162-176 | As written, `[v]:d` parses to `v` and `d` when the IPv6 test matches inside the address, and is unparsable otherwise |
| BracketedIPv6.BracketedAddressParses | lib/sshkit/host.rb:162-176 | With the corrected test, `[v]:d` parses to the address `v` and the port `d` for every digit string `d` and every address `v` holding no `@`, pipe or bracket, IPv4-mapped and zoned forms included |
| BracketedIPv6.LetterGroupAddressRejected | lib/sshkit/host.rb:164-166 | As written, `[fe80::a]:22` is unparsable |
| BracketedIPv6.LetterGroupAddressCorrected | lib/sshkit/host.rb:164-166 | With the corrected test, `[fe80::a]:22` is the address `fe80::a` on port 22 |
| BracketedIPv6.ZonedAddressRejected | lib/sshkit/host.rb:164-166 | As written, the zoned address `[fe80::a%eth0]:22` is unparsable |
| BracketedIPv6.ZonedAddressCorrected | lib/sshkit/host.rb:162-176 | With the corrected test, `[fe80::a%eth0]:22` is the address `fe80::a%eth0` on port 22 |
| HostScenarios.PlainHostName | lib/sshkit/host.rb:95-119 | `example.com` gives the login name, `example.com` and 22 |
| HostScenarios.HostNameAndPortShape | lib/sshkit/host.rb:145-157 | `host:digits` gives the login name, that host and that port |
| HostScenarios.HostNameAndPort | lib/sshkit/host.rb:145-157 | `example.com:2222` gives the login name, `example.com` and 2222 |
| HostScenarios.UserAndHostNameShape | lib/sshkit/host.rb:181-191 | `user@host` gives that user and host and port 22 |
| HostScenarios.UserAndHostName | lib/sshkit/host.rb:181-191 | `deploy@example.com` gives `deploy`, `example.com` and 22 |
| HostScenarios.UserHostNameAndPort | lib/sshkit/host.rb:196-209 | `deploy@example.com:2222` gives `deploy`, `example.com` and 2222 |
| HostScenarios.BracketedIPv6Address | lib/sshkit/host.rb:162-176 | `[fe80::1]:2222` gives the login name, `fe80::1` and 2222, and leaves `fe80::1:2222` as the caller's string |
| HostScenarios.UnparsableString | lib/sshkit/host.rb:42-44 | `a` pipe `b` fails with the unparsable-host-string error carrying that string |
| HostScenarios.UnknownOption | lib/sshkit/host.rb:46-51 | `{nope: 1}` fails with the unknown-host-property error naming `nope` |

## Left out

- `Etc.getlogin` is the parameter `login`. Its value is not modelled.
- Ruby's `Object#hash` is the parameter `hash`. Its values are seeded per process, so every equality lemma holds for all hash functions.
- `to_key` (host.rb:70-72) is not modelled. It interns `to_s` as a symbol, and symbols have no counterpart here.
- The first definition of `HostWithUsernameAndPortParser` (host.rb:125-143) is not modelled. The reopening at host.rb:196-209 replaces all four of its methods before any host is built.
- `Host.new` with an argument that is neither a `String` nor a `Hash` is not modelled. Ruby would send it to the parsers' `match`.
- Option keys are strings, the `to_s` of the Ruby key. A key whose `"#{key}="` names some other method answers `respond_to?` and is not modelled. Examples are `=` (giving `==`) and `!` (giving `!=`).
- A Ruby `Hash` has distinct keys. The model's entry sequence may repeat a name, which is what `:user` and `"user"` together give, and the last-entry lemma covers that case.
- Hosts.ToS: gives no string when the user or host name is an array or the port is not an `Integer`. In Ruby an array prints in its `inspect` form, and `%d` converts a `String` port that is a whole integer literal, such as `"2222"`, and raises for `nil` and any other string. None of this is modelled: Ruby's integer-literal reading (bases, underscores, surrounding spaces) lies outside this core.
- `String#to_i`'s `0d` radix prefix is not modelled. It only matters for a field that starts with `0d`.
- Freezing is not modelled. `gsub!` on a frozen host string would raise `FrozenError`.
- `eql?` against an object that is not a `Host` is not modelled.
- The error classes are the two `HostError` cases with their messages. `UnparsableHostStringError`'s place under `SSHKit::StandardError` is not modelled.
- The contents of the `OpenStruct` behind `properties` are a map. Only its lazy creation and its identity per host are stated. Those contracts use `fresh` and `old`.
- Host field values are `nil`, strings, integers and arrays. Other Ruby objects are not modelled.
- Object sharing is not modelled: strings and arrays are values. In Ruby the simple parser's `hostname` is the caller's own string object (host.rb:101-103, 113-115), option values are stored by reference (host.rb:48), and `keys` returns `@keys` itself when it is an array (host.rb:20-22). A later in-place change to such an object then changes the host, its `hash` included; the model has no such aliasing. The one in-place change inside this core, the IPv6 parser's `gsub!`, is modelled as the returned string.

## Findings

| source | as written | input that shows it | evidently intended | confidence | as-written member | corrected member |
|---|---|---|---|---|---|---|
| lib/sshkit/host.rb:56-68 | `hash` XORs the hashes of user, host name and port, and `eql?` compares only hashes. XOR ignores operand order and cancels equal operands | `Host.new("alice@bob:22") == Host.new("bob@alice:22")` is true, and so is `Host.new("x@x:22") == Host.new("y@y:22")` | two hosts are equal when user, host name and port agree, and only then | high, not executed | HostProperties.SwappedHostStringsCompareEqual | HostProperties.IdentityEqlKeepsHashContract |
| lib/sshkit/host.rb:164-166 | the IPv6 test needs a hex digit or colon right before a `:` followed by a digit. In `[address]:port` a `]` stands before the port's `:` | `Host.new("[fe80::a]:22")` raises the unparsable-host-string error, as does `[::ffff]:443` | `[address]:port` is accepted for any address text holding no `@`, pipe or bracket, which takes in every IPv6 text form, IPv4-mapped and zoned ones included | medium, not executed | BracketedIPv6.LetterGroupAddressRejected | BracketedIPv6.BracketedAddressParses |

The `Hosts` module keeps the code's behaviour: `Eql` and `Parse` are as written. `IdentityEql` is the corrected comparison, and the `to_s` round trip is stated with it. `ParseCorrected` is the parse with the corrected IPv6 test, and it is proved to agree with `Parse` wherever `Parse` succeeds.

=== FILE: bracketed_ipv6.dfy ===
/** Bracketed IPv6 addresses with a port, `[address]:port`.

    The IPv6 parser's test looks for a hex digit or colon, a `:` and a
    decimal digit. Before the port's `:` stands the `]`, so in
    `[address]:port` the test can only succeed inside the address: some `:`
    of the address must be followed by a decimal digit. `[fe80::a]:22` and
    `[::ffff]:443` suit no parser. The corrected test also accepts a `]`
    before the `:`; with it every bracketed address free of `@`, `|` and
    brackets parses to itself, the IPv4-mapped form of section 2.2 of
    RFC 4291 (`::ffff:192.0.2.1`) and the zoned forms of section 11 of
    RFC 4007 (`fe80::1%eth0`) and of RFC 6874 (`fe80::1%25eth0`) included. */
module BracketedIPv6 {
  import opened Wrappers
  import opened RubyString
  import opened HostParsers
  import opened ParserProperties

  /** A `]`, then the port's `:` at `j`, then a digit. */
  predicate BracketPortMatchAt(s: string, j: int) {
    && 1 <= j
    && j + 1 < |s|
    && s[j - 1] == ']'
    && s[j] == ':'
    && IsDigit(s[j + 1])
  }

  /** The corrected IPv6 test, `/[a-fA-F0-9:\]]+:\d+/`. */
  predicate CorrectedIPv6Suitable(s: string) {
    IPv6HostWithPortSuitable(s) || exists j | 0 <= j < |s| :: BracketPortMatchAt(s, j)
  }

  /** The parser tests with the corrected IPv6 test in its slot. */
  predicate CorrectedSuitable(p: Parser, s: string) {
    if p == IPv6HostWithPort then CorrectedIPv6Suitable(s) else Suitable(p, s)
  }

  /** The parser the list would choose with the corrected IPv6 test: only a
      string nothing suited before can gain a parser, and it gains the IPv6
      one. */
  function ChooseParserCorrected(s: string): Option<Parser> {
    if ChooseParser(s).None? && CorrectedIPv6Suitable(s) then Some(IPv6HostWithPort)
    else ChooseParser(s)
  }

  /** `Host#initialize`'s string path with the corrected IPv6 test. */
  function ParseCorrected(s: string, login: Option<string>): Result<Parsed, HostError> {
    RunParser(ChooseParserCorrected(s), s, login)
  }

  /** `ChooseParserCorrected` is the first parser in list order that the
      corrected tests accept. */
  lemma ChooseParserCorrectedIsFirstSuitable(s: string, p: Parser)
    ensures ChooseParserCorrected(s) == Some(p)
        <==> CorrectedSuitable(p, s) && forall q :: Priority(q) < Priority(p) ==> !CorrectedSuitable(q, s)
  {
    forall q {
      ChooseParserIsFirstSuitable(s, q);
    }
    UnparsableIffNoneSuitable(s, None);
    if ChooseParser(s).Some? {
      ChosenIsSuitable(s, ChooseParser(s).value);
    }
  }

  /** The correction only adds strings: what parsed before parses the same,
      and what fails afterwards failed before. */
  lemma CorrectionOnlyAdds(s: string, login: Option<string>)
    ensures Parse(s, login).Success? ==> ParseCorrected(s, login) == Parse(s, login)
    ensures ParseCorrected(s, login).Failure? ==> Parse(s, login) == ParseCorrected(s, login)
  {
  }

  /** The characters an address between the brackets may not hold: an `@`
      or `|` hands `[v]:d` to another parser or to none, and a bracket
      inside would be deleted along with the enclosing pair. */
  const NotInAddress: set<char> := {'@', '|', '[', ']'}

  /** An address text the brackets can enclose: hex groups and colons, an
      embedded IPv4 part, a `%` zone, and anything else but `@`, `|` and
      brackets. */
  predicate BracketableAddress(v: string) {
    NoneOf(v, NotInAddress)
  }

  /** The shape `[v]:d`: no `@`, no `|`, and a `]` before the port. */
  lemma BracketedShape(v: string, d: string)
    requires BracketableAddress(v) && AllDigits(d) && d != ""
    ensures var s := "[" + v + "]:" + d;
      && '@' !in s && '|' !in s && ':' in s && '[' in s
      && BracketPortMatchAt(s, |v| + 2)
  {
    var s := "[" + v + "]:" + d;
    forall i | 0 <= i < |s|
      ensures s[i] != '@' && s[i] != '|'
    {
      if 1 <= i <= |v| {
        assert s[i] == v[i - 1];
      } else if |v| + 3 <= i {
        assert s[i] == d[i - |v| - 3];
      }
    }
    assert s[|v| + 2] == ':' && s[0] == '[';
  }

  lemma DigitsHaveNoSeparator(d: string)
    requires AllDigits(d)
    ensures NoneOf(d, Brackets) && NoneOf(d, {':'})
  {
    forall k | 0 <= k < |d| ensures d[k] !in Brackets && d[k] != ':' {
      assert IsDigit(d[k]);
    }
  }

  /** Deleting the brackets from `[v]:d` leaves `v:d`. */
  lemma BracketsDeleted(v: string, d: string)
    requires BracketableAddress(v) && AllDigits(d)
    ensures DeleteChars("[" + v + "]:" + d, Brackets) == v + ":" + d
  {
    DigitsHaveNoSeparator(d);
    assert NoneOf(v, Brackets);
    var rest := ":" + d;
    assert NoneOf(rest, Brackets);
    var s := "[" + v + "]:" + d;
    assert s == "[" + (v + ("]" + rest));
    assert DeleteChars("[", Brackets) == "";
    assert DeleteChars("]", Brackets) == "";
    DeleteCharsNoop(v, Brackets);
    DeleteCharsNoop(rest, Brackets);
    DeleteCharsAppend("]", rest, Brackets);
    assert DeleteChars("]" + rest, Brackets) == rest;
    DeleteCharsAppend(v, "]" + rest, Brackets);
    assert DeleteChars(v + ("]" + rest), Brackets) == v + rest;
    DeleteCharsAppend("[", v + ("]" + rest), Brackets);
    assert DeleteChars(s, Brackets) == v + rest;
    assert v + ":" + d == v + rest;
  }

  /** The `:`-fields of `v:d` are those of `v`, then `d`. */
  lemma PortFieldLast(v: string, d: string)
    requires AllDigits(d) && d != ""
    ensures Split(v + ":" + d, {':'}) == Fields(v, {':'}) + [d]
  {
    DigitsHaveNoSeparator(d);
    assert v + ":" + d == v + [':'] + d;
    FieldsAppend(v, ':', d, {':'});
    FieldsOfPlain(d, {':'});
  }

  /** The IPv6 parser's reading of `[v]:d`: the address `v`, the port `d`,
      and the string left as `v:d`. */
  lemma BracketedAttributes(v: string, d: string, login: Option<string>)
    requires BracketableAddress(v) && AllDigits(d) && d != ""
    ensures RunParser(Some(IPv6HostWithPort), "[" + v + "]:" + d, login)
         == Success(Parsed(Attributes(login, Some(v), ToI(d)), v + ":" + d))
  {
    BracketsDeleted(v, d);
    PortFieldLast(v, d);
    var fs := Fields(v, {':'}) + [d];
    assert AllButLast(fs) == Fields(v, {':'});
    JoinFields(v, ':');
  }

  /** With the corrected test, `[v]:d` parses to the address `v` and the
      port `d`, the login name as user, whatever the address. */
  lemma BracketedAddressParses(v: string, d: string, login: Option<string>)
    requires BracketableAddress(v) && AllDigits(d) && d != ""
    ensures ChooseParserCorrected("[" + v + "]:" + d) == Some(IPv6HostWithPort)
    ensures ParseCorrected("[" + v + "]:" + d, login)
         == Success(Parsed(Attributes(login, Some(v), ToI(d)), v + ":" + d))
  {
    var s := "[" + v + "]:" + d;
    BracketedShape(v, d);
    PatternsNeedSeparators(s);
    if ChooseParser(s).Some? {
      ChosenIsSuitable(s, ChooseParser(s).value);
    }
    BracketedAttributes(v, d, login);
  }

  /** As written, `[v]:d` parses the same when the IPv6 test finds its
      match inside the address, and fails otherwise. */
  lemma BracketedAddressAsWritten(v: string, d: string, login: Option<string>)
    requires BracketableAddress(v) && AllDigits(d) && d != ""
    ensures var s := "[" + v + "]:" + d;
      && (IPv6HostWithPortSuitable(s) ==>
            Parse(s, login) == Success(Parsed(Attributes(login, Some(v), ToI(d)), v + ":" + d)))
      && (!IPv6HostWithPortSuitable(s) ==> Parse(s, login) == Failure(UnparsableHostString(s)))
  {
    var s := "[" + v + "]:" + d;
    BracketedShape(v, d);
    PatternsNeedSeparators(s);
    UnparsableIffNoneSuitable(s, login);
    if IPv6HostWithPortSuitable(s) {
      IPv6HostWithPortChosen(s);
      BracketedAttributes(v, d, login);
    }
  }

  /** `fe80::a` can stand between brackets. */
  lemma LetterGroupShape()
    ensures BracketableAddress("fe80::a")
    ensures "[" + "fe80::a" + "]:" + "22" == "[fe80::a]:22"
    ensures "fe80::a" + ":" + "22" == "fe80::a:22"
  {
    var v := "fe80::a";
    forall i | 0 <= i < |v| ensures v[i] !in NotInAddress {
      assert v[i] in v;
    }
  }

  /** As written, `[fe80::a]:22` suits no parser: its only `:` followed by
      a digit comes after the `]`. */
  lemma LetterGroupAddressRejected(login: Option<string>)
    ensures Parse("[fe80::a]:22", login) == Failure(UnparsableHostString("[fe80::a]:22"))
  {
    var s := "[fe80::a]:22";
    forall j | 0 <= j < |s|
      ensures !IPv6PortMatchAt(s, j)
    {
      if s[j] == ':' {
        assert j == 5 || j == 6 || j == 9;
      }
    }
    LetterGroupShape();
    assert AllDigits("22");
    BracketedAddressAsWritten("fe80::a", "22", login);
  }

  /** Corrected, `[fe80::a]:22` is the address `fe80::a` on port 22. */
  lemma LetterGroupAddressCorrected(login: Option<string>)
    ensures ParseCorrected("[fe80::a]:22", login)
         == Success(Parsed(Attributes(login, Some("fe80::a"), 22), "fe80::a:22"))
  {
    var v, d := "fe80::a", "22";
    LetterGroupShape();
    assert AllDigits(d);
    assert IntToDecimal(22) == d;
    ToIOfDecimal(22);
    BracketedAddressParses(v, d, login);
  }

  /** `fe80::a%eth0`, a link-local address with its zone, can stand between
      brackets. */
  lemma ZonedAddressShape()
    ensures BracketableAddress("fe80::a%eth0")
    ensures "[" + "fe80::a%eth0" + "]:" + "22" == "[fe80::a%eth0]:22"
    ensures "fe80::a%eth0" + ":" + "22" == "fe80::a%eth0:22"
  {
    var v := "fe80::a%eth0";
    forall i | 0 <= i < |v| ensures v[i] !in NotInAddress {
      assert v[i] in v;
    }
  }

  /** As written, `[fe80::a%eth0]:22` suits no parser either. */
  lemma ZonedAddressRejected(login: Option<string>)
    ensures Parse("[fe80::a%eth0]:22", login) == Failure(UnparsableHostString("[fe80::a%eth0]:22"))
  {
    var s := "[fe80::a%eth0]:22";
    forall j | 0 <= j < |s|
      ensures !IPv6PortMatchAt(s, j)
    {
      if s[j] == ':' {
        assert j == 5 || j == 6 || j == 14;
      }
    }
    ZonedAddressShape();
    assert AllDigits("22");
    BracketedAddressAsWritten("fe80::a%eth0", "22", login);
  }

  /** Corrected, `[fe80::a%eth0]:22` is the zoned address on port 22. */
  lemma ZonedAddressCorrected(login: Option<string>)
    ensures ParseCorrected("[fe80::a%eth0]:22", login)
         == Success(Parsed(Attributes(login, Some("fe80::a%eth0"), 22), "fe80::a%eth0:22"))
  {
    var v, d := "fe80::a%eth0", "22";
    ZonedAddressShape();
    assert AllDigits(d);
    assert IntToDecimal(22) == d;
    ToIOfDecimal(22);
    BracketedAddressParses(v, d, login);
  }
}

=== FILE: host.dfy ===
/** `SSHKit::Host`: user, host name and port, plus password, keys and a
    lazily created bag of properties. */
module Hosts {
  import opened Wrappers
  import opened RubyString
  import opened HostParsers

  /** The Ruby values a host's fields can hold in this model. */
  datatype Value = Nil | Str(s: string) | Int(i: int) | List(items: seq<Value>)

  /** A parser's `nil` or string as a Ruby value. */
  function OptionValue(o: Option<string>): (v: Value)
    ensures o.None? <==> v == Nil
    ensures o.Some? ==> v == Str(o.value)
  {
    match o
    case None => Nil
    case Some(s) => Str(s)
  }

  /** The instance variables `@user`, `@hostname`, `@port`, `@password` and
      `@keys`; an instance variable never assigned reads as `nil`. */
  datatype HostFields = HostFields(user: Value, hostname: Value, port: Value, password: Value, keysVar: Value)

  /** A host before `initialize` assigns anything. */
  const Unset := HostFields(Nil, Nil, Nil, Nil, Nil)

  /** `Array(v)`: `nil` is empty, an array is itself, anything else is
      wrapped. */
  function ToArray(v: Value): seq<Value> {
    match v
    case Nil => []
    case List(xs) => xs
    case _ => [v]
  }

  /** `keys`. */
  function Keys(f: HostFields): seq<Value> {
    ToArray(f.keysVar)
  }

  /** The names `n` for which a host answers `respond_to?("#{n}=")` with a
      setter: the four `attr_accessor`s, `key=` and `keys=`. */
  const SetterNames: set<string> := {"password", "hostname", "port", "user", "key", "keys"}

  /** `send("#{name}=", value)`. `key=` stores a one-element array. */
  function Assign(f: HostFields, name: string, value: Value): HostFields
    requires name in SetterNames
  {
    if name == "password" then f.(password := value)
    else if name == "hostname" then f.(hostname := value)
    else if name == "port" then f.(port := value)
    else if name == "user" then f.(user := value)
    else if name == "key" then f.(keysVar := List([value]))
    else f.(keysVar := value)
  }

  /** The `Hash` path of `initialize`: each entry, in order, through its
      setter; the first key without one raises `ArgumentError`. A key is
      given as the string its `to_s` yields. */
  function ApplyOptions(f: HostFields, entries: seq<(string, Value)>): (r: Result<HostFields, HostError>)
    ensures r.Failure? <==> exists k :: FirstUnknownAt(entries, k)
    ensures r.Failure? ==> exists k :: FirstUnknownAt(entries, k) && r.error == UnknownHostProperty(entries[k].0)
    decreases |entries|
  {
    if |entries| == 0 then Success(f)
    else
      var (key, value) := entries[0];
      if key in SetterNames then
        assert forall k :: FirstUnknownAt(entries[1..], k) <==> FirstUnknownAt(entries, k + 1);
        assert !FirstUnknownAt(entries, 0);
        assert forall k :: FirstUnknownAt(entries, k) ==> k >= 1 && FirstUnknownAt(entries[1..], k - 1);
        ApplyOptions(Assign(f, key, value), entries[1..])
      else
        assert FirstUnknownAt(entries, 0);
        Failure(UnknownHostProperty(key))
  }

  /** `entries[k]` has no setter and every entry before it has one. */
  predicate FirstUnknownAt(entries: seq<(string, Value)>, k: int) {
    && 0 <= k < |entries|
    && entries[k].0 !in SetterNames
    && forall m :: 0 <= m < k ==> entries[m].0 in SetterNames
  }

  /** What `Host.new` is given: a host string or an options `Hash`. */
  datatype HostArgument = HostString(s: string) | OptionsHash(entries: seq<(string, Value)>)

  /** `Host.new(arg)`, with `login` for `Etc.getlogin`. */
  function NewHost(arg: HostArgument, login: Option<string>): Result<HostFields, HostError> {
    match arg
    case OptionsHash(entries) => ApplyOptions(Unset, entries)
    case HostString(s) =>
      match Parse(s, login)
      case Failure(e) => Failure(e)
      case Success(parsed) =>
        var a := parsed.attributes;
        Success(Unset.(user := OptionValue(a.user), hostname := OptionValue(a.hostname), port := Int(a.port)))
  }

  // ---------------------------------------------------------------------
  // hash, eql?, to_s, netssh_options
  // ---------------------------------------------------------------------

  /** `hash`: the field hashes combined with XOR. `hash` stands for Ruby's
      `Object#hash`, which is seeded per process and so left unspecified. */
  function HostHash(f: HostFields, hash: Value -> bv64): bv64 {
    hash(f.user) ^ hash(f.hostname) ^ hash(f.port)
  }

  /** `eql?` and its aliases `==` and `equal?`: the hashes agree. */
  predicate Eql(self: HostFields, other: HostFields, hash: Value -> bv64) {
    HostHash(other, hash) == HostHash(self, hash)
  }

  /** What `eql?` is meant to compare: user, host name and port, and nothing
      else. */
  predicate IdentityEql(self: HostFields, other: HostFields) {
    self.user == other.user && self.hostname == other.hostname && self.port == other.port
  }

  /** `%s` of a value; an array's `inspect` form is not modelled. */
  function FormatS(v: Value): Option<string> {
    match v
    case Nil => Some("")
    case Str(s) => Some(s)
    case Int(i) => Some(IntToDecimal(i))
    case List(_) => None
  }

  /** `%d` of an Integer. Ruby also converts a String holding an integer
      literal and raises for other values; neither is modelled. */
  function FormatD(v: Value): Option<string> {
    match v
    case Int(i) => Some(IntToDecimal(i))
    case _ => None
  }

  /** `to_s`, `sprintf("%s@%s:%d", username, hostname, port)`. */
  function ToS(f: HostFields): Option<string> {
    match (FormatS(f.user), FormatS(f.hostname), FormatD(f.port))
    case (Some(u), Some(h), Some(p)) => Some(u + "@" + h + ":" + p)
    case _ => None
  }

  /** The options handed to the SSH library. */
  datatype NetSshOptions = NetSshOptions(keys: seq<Value>, port: Value, user: Value, password: Value)

  function NetsshOptions(f: HostFields): NetSshOptions {
    NetSshOptions(Keys(f), f.port, f.user, f.password)
  }

  // ---------------------------------------------------------------------
  // The host object and its properties
  // ---------------------------------------------------------------------

  /** An `OpenStruct`: named values a caller attaches to a host. */
  class PropertyBag {
    var entries: map<string, Value>

    constructor()
      ensures entries == map[]
    {
      entries := map[];
    }
  }

  /** A host object: its fields and `@properties`, absent until first read. */
  class Host {
    var fields: HostFields
    var bag: PropertyBag?

    constructor(f: HostFields)
      ensures fields == f && bag == null
    {
      fields := f;
      bag := null;
    }

    /** `properties`: `@properties ||= OpenStruct.new`. */
    method Properties() returns (b: PropertyBag)
      modifies this
      ensures bag == b && fields == old(fields)
      ensures old(bag) != null ==> b == old(bag)
      ensures old(bag) == null ==> fresh(b) && b.entries == map[]
    {
      if bag == null {
        bag := new PropertyBag();
      }
      b := bag;
    }
  }

  /** Reading `properties` twice gives the same bag. */
  method PropertiesTwice(h: Host) returns (first: PropertyBag, second: PropertyBag)
    modifies h
    ensures first == second && h.bag == first
  {
    first := h.Properties();
    second := h.Properties();
  }

  /** Two hosts that have not read `properties` yet get different bags. */
  method PropertiesOfTwoHosts(h1: Host, h2: Host) returns (b1: PropertyBag, b2: PropertyBag)
    requires h1 != h2 && h1.bag == null && h2.bag == null
    modifies h1, h2
    ensures b1 != b2 && b1.entries == map[] && b2.entries == map[]
  {
    b1 := h1.Properties();
    b2 := h2.Properties();
  }
}

=== FILE: host_parsers.dfy ===
/** The host-string parsers of `SSHKit::Host` and the choice among them.

    A parser has a structural test (`suitable?`) and three readers
    (`username`, `hostname`, `port`) that `attributes` calls in that order.
    `Host#initialize` keeps the parsers of a fixed list whose test accepts the
    string and uses the first one kept. */
module HostParsers {
  import opened Wrappers
  import opened RubyString

  /** The port of a parser that reads none from the string. */
  const DefaultPort := 22

  /** The parser classes as they exist once host.rb is loaded. The file opens
      `HostWithUsernameAndPortParser` twice; the second `class` keyword
      reopens the same class and its methods replace those of the first, so
      there are five parsers, not six. */
  datatype Parser =
    | Simple
    | HostWithPort
    | HostWithUsernameAndPort
    | IPv6HostWithPort
    | HostWithUsername

  /** The list `Host#initialize` filters, in its order; the last entry is the
      same class as the third. */
  const ParserList: seq<Parser> :=
    [Simple, HostWithPort, HostWithUsernameAndPort, IPv6HostWithPort, HostWithUsername,
     HostWithUsernameAndPort]

  /** The two ways constructing a host fails. */
  datatype HostError =
    | UnparsableHostString(hostString: string)
    | UnknownHostProperty(key: string)

  function Message(e: HostError): string {
    match e
    case UnparsableHostString(s) => "Cannot parse host string " + s
    case UnknownHostProperty(k) => "Unknown host property " + k
  }

  /** The separators of `split(/:|@/)`. */
  const UserHostSeparators: set<char> := {':', '@'}

  /** The characters `gsub!(/\[|\]/, '')` deletes. */
  const Brackets: set<char> := {'[', ']'}

  // ---------------------------------------------------------------------
  // suitable?
  // ---------------------------------------------------------------------

  /** `/[:|@]/` does not match: inside the brackets `|` is a literal. */
  predicate SimpleSuitable(s: string) {
    ':' !in s && '|' !in s && '@' !in s
  }

  /** `/[@|\[|\]]/` does not match. */
  predicate HostWithPortSuitable(s: string) {
    '@' !in s && '|' !in s && '[' !in s && ']' !in s
  }

  /** `/@.*:\d+/` matches with its `@` at `i` and its `:` at `j`; `.` does not
      match a newline, and one digit is all `\d+` needs. */
  predicate UserHostPortMatchAt(s: string, i: int, j: int) {
    && 0 <= i < j
    && j + 1 < |s|
    && s[i] == '@'
    && s[j] == ':'
    && IsDigit(s[j + 1])
    && '\n' !in s[i + 1..j]
  }

  predicate HostWithUsernameAndPortSuitable(s: string) {
    exists i, j | 0 <= i < j < |s| :: UserHostPortMatchAt(s, i, j)
  }

  predicate IsHexOrColon(c: char) {
    IsHexDigit(c) || c == ':'
  }

  /** `/[a-fA-F0-9:]+:\d+/` matches with the `:` before the digits at `j`;
      a run of one hex digit or colon before it is enough. */
  predicate IPv6PortMatchAt(s: string, j: int) {
    && 1 <= j
    && j + 1 < |s|
    && IsHexOrColon(s[j - 1])
    && s[j] == ':'
    && IsDigit(s[j + 1])
  }

  predicate IPv6HostWithPortSuitable(s: string) {
    exists j | 0 <= j < |s| :: IPv6PortMatchAt(s, j)
  }

  /** `/@/` matches and `/\:/` does not. */
  predicate HostWithUsernameSuitable(s: string) {
    '@' in s && ':' !in s
  }

  predicate Suitable(p: Parser, s: string) {
    match p
    case Simple => SimpleSuitable(s)
    case HostWithPort => HostWithPortSuitable(s)
    case HostWithUsernameAndPort => HostWithUsernameAndPortSuitable(s)
    case IPv6HostWithPort => IPv6HostWithPortSuitable(s)
    case HostWithUsername => HostWithUsernameSuitable(s)
  }

  // ---------------------------------------------------------------------
  // username, hostname, port, attributes
  // ---------------------------------------------------------------------

  /** What a parser's `attributes` returns; `None` is Ruby's `nil`. */
  datatype Attributes = Attributes(user: Option<string>, hostname: Option<string>, port: int)

  /** `username`; `login` is what `Etc.getlogin` returns. */
  function Username(p: Parser, hostString: string, login: Option<string>): Option<string> {
    match p
    case HostWithUsernameAndPort => At(Split(hostString, UserHostSeparators), 0)
    case HostWithUsername => First(Split(hostString, {'@'}))
    case _ => login
  }

  /** `hostname`, with the parser's host string after the call: the IPv6
      parser deletes the brackets from it in place. */
  function Hostname(p: Parser, hostString: string): (Option<string>, string) {
    match p
    case Simple => (Some(hostString), hostString)
    case HostWithPort => (First(Split(hostString, {':'})), hostString)
    case HostWithUsernameAndPort => (At(Split(hostString, UserHostSeparators), 1), hostString)
    case IPv6HostWithPort =>
      var stripped := DeleteChars(hostString, Brackets);
      (Some(Join(AllButLast(Split(stripped, {':'})), ':')), stripped)
    case HostWithUsername => (Last(Split(hostString, {'@'})), hostString)
  }

  /** `port`. */
  function Port(p: Parser, hostString: string): int {
    match p
    case Simple => DefaultPort
    case HostWithUsername => DefaultPort
    case HostWithPort => OptionToI(Last(Split(hostString, {':'})))
    case IPv6HostWithPort => OptionToI(Last(Split(hostString, {':'})))
    case HostWithUsernameAndPort => OptionToI(At(Split(hostString, UserHostSeparators), 2))
  }

  /** `[username, hostname, port]`, evaluated left to right, so `port` sees
      the string `hostname` left behind; also that string. */
  function AttributesOf(p: Parser, hostString: string, login: Option<string>): (Attributes, string) {
    var user := Username(p, hostString, login);
    var (host, after) := Hostname(p, hostString);
    (Attributes(user, host, Port(p, after)), after)
  }

  // ---------------------------------------------------------------------
  // Choosing a parser
  // ---------------------------------------------------------------------

  /** `ps.select { |p| p.suitable?(s) }`. */
  function SelectSuitable(ps: seq<Parser>, s: string): (r: seq<Parser>)
    ensures forall p :: p in r <==> p in ps && Suitable(p, s)
    ensures r != [] ==> exists i :: FirstSuitableAt(ps, s, i) && ps[i] == r[0]
  {
    if |ps| == 0 then []
    else if Suitable(ps[0], s) then
      assert FirstSuitableAt(ps, s, 0);
      [ps[0]] + SelectSuitable(ps[1..], s)
    else
      assert forall i :: FirstSuitableAt(ps[1..], s, i) ==> FirstSuitableAt(ps, s, i + 1);
      SelectSuitable(ps[1..], s)
  }

  /** `ps[i]` is suitable and no earlier entry is. */
  predicate FirstSuitableAt(ps: seq<Parser>, s: string, i: int) {
    0 <= i < |ps| && Suitable(ps[i], s) && forall k :: 0 <= k < i ==> !Suitable(ps[k], s)
  }

  /** The parser `Host#initialize` uses, if any. */
  function ChooseParser(s: string): Option<Parser> {
    var suitable := SelectSuitable(ParserList, s);
    if |suitable| > 0 then Some(suitable[0]) else None
  }

  /** What parsing left behind: the attributes and the caller's string as it
      is afterwards (the parser works on the caller's string object). */
  datatype Parsed = Parsed(attributes: Attributes, hostString: string)

  /** The chosen parser's attributes, or the error when none was chosen. */
  function RunParser(choice: Option<Parser>, s: string, login: Option<string>): Result<Parsed, HostError> {
    match choice
    case None => Failure(UnparsableHostString(s))
    case Some(p) =>
      var (attributes, after) := AttributesOf(p, s, login);
      Success(Parsed(attributes, after))
  }

  /** The string path of `Host#initialize`. */
  function Parse(s: string, login: Option<string>): Result<Parsed, HostError> {
    RunParser(ChooseParser(s), s, login)
  }
}

=== FILE: host_properties.dfy ===
/** What a `Host` guarantees: the canonical string parses back, equality
    ignores credentials, and the options `Hash` is applied entry by entry. */
module HostProperties {
  import opened Wrappers
  import opened RubyString
  import opened HostParsers
  import opened ParserProperties
  import opened Hosts

  // ---------------------------------------------------------------------
  // to_s parses back
  // ---------------------------------------------------------------------

  /** `"user@host:port"` splits on `:` and `@` into exactly its three parts
      when the user and host name hold neither separator. */
  lemma SplitCanonical(u: string, h: string, d: string)
    requires NoneOf(u, UserHostSeparators) && NoneOf(h, UserHostSeparators)
    requires AllDigits(d) && d != ""
    ensures Split(u + "@" + h + ":" + d, UserHostSeparators) == [u, h, d]
  {
    var seps := UserHostSeparators;
    assert u + "@" + h + ":" + d == u + ['@'] + (h + [':'] + d);
    FieldsAppend(u, '@', h + [':'] + d, seps);
    FieldsAppend(h, ':', d, seps);
    FieldsOfPlain(u, seps);
    FieldsOfPlain(h, seps);
    FieldsOfPlain(d, seps);
  }

  /** A user and a host name, neither holding `:` or `@` and the host name
      no newline, then `:` and digits: that user, host and port. */
  lemma UserHostPortParses(u: string, h: string, d: string, login: Option<string>)
    requires NoneOf(u, UserHostSeparators) && NoneOf(h, UserHostSeparators) && '\n' !in h
    requires AllDigits(d) && d != ""
    ensures NewHost(HostString(u + "@" + h + ":" + d), login)
         == Success(Unset.(user := Str(u), hostname := Str(h), port := Int(ToI(d))))
  {
    var s := u + "@" + h + ":" + d;
    var i, j := |u|, |u| + 1 + |h|;
    assert s[i] == '@' && s[j] == ':' && s[j + 1] == d[0];
    assert s[i + 1..j] == h;
    assert UserHostPortMatchAt(s, i, j);
    ParseHostWithUsernameAndPort(s, login);
    SplitCanonical(u, h, d);
  }

  /** Parsing a host's `to_s` chooses HostWithUsernameAndPort and gives back
      its user, host name and port, when the user and host name hold no `:`
      or `@`, the host name no newline, and the port is not negative. */
  lemma ToSParsesBack(f: HostFields, login: Option<string>)
    requires f.user.Str? && NoneOf(f.user.s, UserHostSeparators)
    requires f.hostname.Str? && NoneOf(f.hostname.s, UserHostSeparators) && '\n' !in f.hostname.s
    requires f.port.Int? && f.port.i >= 0
    ensures ToS(f).Some?
    ensures ChooseParser(ToS(f).value) == Some(HostWithUsernameAndPort)
    ensures NewHost(HostString(ToS(f).value), login).Success?
    ensures IdentityEql(NewHost(HostString(ToS(f).value), login).value, f)
  {
    var u, h, p := f.user.s, f.hostname.s, f.port.i;
    var d := IntToDecimal(p);
    var t := u + "@" + h + ":" + d;
    assert ToS(f) == Some(t);
    var i, j := |u|, |u| + 1 + |h|;
    assert t[i] == '@' && t[j] == ':' && t[j + 1] == d[0];
    assert t[i + 1..j] == h;
    assert UserHostPortMatchAt(t, i, j);
    ParseHostWithUsernameAndPort(t, login);
    SplitCanonical(u, h, d);
    ToIOfDecimal(p);
  }

  // ---------------------------------------------------------------------
  // Equality
  // ---------------------------------------------------------------------

  /** Hosts that agree on user, host name and port are equal whatever their
      password and keys. */
  lemma EqlIgnoresCredentials(a: HostFields, b: HostFields, hash: Value -> bv64)
    requires IdentityEql(a, b)
    ensures Eql(a, b, hash) && Eql(b, a, hash)
    ensures HostHash(a, hash) == HostHash(b, hash)
  {
  }

  /** Equality of hashes is an equivalence. */
  lemma EqlIsEquivalence(a: HostFields, b: HostFields, c: HostFields, hash: Value -> bv64)
    ensures Eql(a, a, hash)
    ensures Eql(a, b, hash) ==> Eql(b, a, hash)
    ensures Eql(a, b, hash) && Eql(b, c, hash) ==> Eql(a, c, hash)
  {
  }

  lemma XorSwap(x: bv64, y: bv64, z: bv64)
    ensures y ^ x ^ z == x ^ y ^ z
  {
  }

  lemma XorCancel(x: bv64, z: bv64)
    ensures x ^ x ^ z == z
  {
  }

  /** XOR does not see the order of its operands: swapping user and host
      name keeps the hash, under every hash function. */
  lemma SwappedHostsAreEql(a: HostFields, hash: Value -> bv64)
    ensures Eql(a, a.(user := a.hostname, hostname := a.user), hash)
  {
    var swapped := a.(user := a.hostname, hostname := a.user);
    var x, y, z := hash(a.user), hash(a.hostname), hash(a.port);
    assert HostHash(swapped, hash) == y ^ x ^ z;
    assert HostHash(a, hash) == x ^ y ^ z;
    XorSwap(x, y, z);
  }

  /** XOR cancels equal operands: a host whose user and host name agree
      hashes like its port alone, so any two such hosts with the same port
      are equal. */
  lemma SameUserAndHostnameCancel(a: HostFields, b: HostFields, hash: Value -> bv64)
    requires a.user == a.hostname && b.user == b.hostname && a.port == b.port
    ensures HostHash(a, hash) == hash(a.port)
    ensures Eql(a, b, hash)
  {
    XorCancel(hash(a.user), hash(a.port));
    XorCancel(hash(b.user), hash(b.port));
  }

  /** `Host.new("alice@bob:22") == Host.new("bob@alice:22")` holds under
      every hash function although the two hosts differ. */
  lemma SwappedHostStringsCompareEqual(login: Option<string>, hash: Value -> bv64)
    ensures NewHost(HostString("alice@bob:22"), login).Success?
    ensures NewHost(HostString("bob@alice:22"), login).Success?
    ensures var a := NewHost(HostString("alice@bob:22"), login).value;
      var b := NewHost(HostString("bob@alice:22"), login).value;
      !IdentityEql(a, b) && Eql(a, b, hash)
  {
    var u, h, d := "alice", "bob", "22";
    NoneOfPair(u, ':', '@');
    NoneOfPair(h, ':', '@');
    assert '\n' !in u && '\n' !in h;
    assert AllDigits(d);
    SwappedHostStrings();
    UserHostPortParses(u, h, d, login);
    UserHostPortParses(h, u, d, login);
    var a := Unset.(user := Str(u), hostname := Str(h), port := Int(ToI(d)));
    SwappedHostsAreEql(a, hash);
  }

  lemma SwappedHostStrings()
    ensures "alice" + "@" + "bob" + ":" + "22" == "alice@bob:22"
    ensures "bob" + "@" + "alice" + ":" + "22" == "bob@alice:22"
  {
  }

  /** Comparing the fields themselves keeps Ruby's `Hash` contract (equal
      hosts have equal hashes, under every hash function), is an
      equivalence, and tells a host from its swapped twin. */
  lemma IdentityEqlKeepsHashContract(a: HostFields, b: HostFields, c: HostFields, hash: Value -> bv64)
    ensures IdentityEql(a, b) ==> HostHash(a, hash) == HostHash(b, hash) && Eql(a, b, hash)
    ensures IdentityEql(a, a)
    ensures IdentityEql(a, b) ==> IdentityEql(b, a)
    ensures IdentityEql(a, b) && IdentityEql(b, c) ==> IdentityEql(a, c)
    ensures a.user != a.hostname ==> !IdentityEql(a, a.(user := a.hostname, hostname := a.user))
  {
  }

  // ---------------------------------------------------------------------
  // The options Hash
  // ---------------------------------------------------------------------

  /** The last entry whose key is one of `names`. */
  function LastEntry(entries: seq<(string, Value)>, names: set<string>): (r: Option<(string, Value)>)
    ensures r.Some? ==> r.value in entries && r.value.0 in names
    ensures r.None? ==> forall k :: 0 <= k < |entries| ==> entries[k].0 !in names
  {
    if |entries| == 0 then None
    else
      match LastEntry(entries[1..], names)
      case Some(e) => Some(e)
      case None => if entries[0].0 in names then Some(entries[0]) else None
  }

  /** A field after the entries are applied: the value of the last entry
      naming it, or what it held before. */
  function FieldAfter(entries: seq<(string, Value)>, name: string, before: Value): Value {
    match LastEntry(entries, {name})
    case None => before
    case Some((_, v)) => v
  }

  /** `@keys` after the entries are applied: the last `key` or `keys` entry
      decides, `key` wrapping its value in an array. */
  function KeysAfter(entries: seq<(string, Value)>, before: Value): Value {
    match LastEntry(entries, {"key", "keys"})
    case None => before
    case Some((n, v)) => if n == "key" then List([v]) else v
  }

  /** One entry applied, then the rest: the field ends up as if all the
      entries were applied to the field before the first. */
  lemma FieldAfterStep(entries: seq<(string, Value)>, name: string, before: Value)
    requires |entries| > 0
    ensures FieldAfter(entries[1..], name, if entries[0].0 == name then entries[0].1 else before)
         == FieldAfter(entries, name, before)
  {
  }

  lemma KeysAfterStep(entries: seq<(string, Value)>, before: Value)
    requires |entries| > 0
    ensures var (n, v) := entries[0];
      KeysAfter(entries[1..], if n == "key" then List([v]) else if n == "keys" then v else before)
        == KeysAfter(entries, before)
  {
  }

  /** With every key naming a setter, each field ends up with the value of
      the last entry naming it, and `@keys` with the last `key`/`keys`
      entry's. */
  lemma {:induction false} OptionsLastEntryWins(f: HostFields, entries: seq<(string, Value)>)
    requires forall k :: 0 <= k < |entries| ==> entries[k].0 in SetterNames
    ensures ApplyOptions(f, entries) == Success(HostFields(
      FieldAfter(entries, "user", f.user),
      FieldAfter(entries, "hostname", f.hostname),
      FieldAfter(entries, "port", f.port),
      FieldAfter(entries, "password", f.password),
      KeysAfter(entries, f.keysVar)))
    decreases |entries|
  {
    if |entries| > 0 {
      var (key, value) := entries[0];
      var g := Assign(f, key, value);
      OptionsLastEntryWins(g, entries[1..]);
      FieldAfterStep(entries, "user", f.user);
      FieldAfterStep(entries, "hostname", f.hostname);
      FieldAfterStep(entries, "port", f.port);
      FieldAfterStep(entries, "password", f.password);
      KeysAfterStep(entries, f.keysVar);
    }
  }

  /** A host built from an options `Hash` gets no defaults: a field no entry
      names stays `nil` (the port is not 22). */
  lemma NewHostFromOptions(entries: seq<(string, Value)>, login: Option<string>)
    requires forall k :: 0 <= k < |entries| ==> entries[k].0 in SetterNames
    ensures NewHost(OptionsHash(entries), login).Success?
    ensures var g := NewHost(OptionsHash(entries), login).value;
      && (LastEntry(entries, {"port"}).None? ==> g.port == Nil)
      && (LastEntry(entries, {"user"}).None? ==> g.user == Nil)
      && (LastEntry(entries, {"hostname"}).None? ==> g.hostname == Nil)
      && (LastEntry(entries, {"key", "keys"}).None? ==> Keys(g) == [])
      && NetsshOptions(g) == NetSshOptions(
           ToArray(KeysAfter(entries, Nil)),
           FieldAfter(entries, "port", Nil),
           FieldAfter(entries, "user", Nil),
           FieldAfter(entries, "password", Nil))
  {
    OptionsLastEntryWins(Unset, entries);
  }

  /** `key=` makes the keys a one-element array; `keys=` takes an array as
      is, `nil` as none, and wraps anything else. Either setter changes
      `@keys` only, and handing `keys=` what `keys` returned changes no key. */
  lemma KeySetters(f: HostFields, v: Value, xs: seq<Value>, s: string, n: int)
    ensures Keys(Assign(f, "key", v)) == [v]
    ensures Keys(Assign(f, "keys", List(xs))) == xs
    ensures Keys(Assign(f, "keys", Nil)) == []
    ensures Keys(Assign(f, "keys", Str(s))) == [Str(s)]
    ensures Keys(Assign(f, "keys", Int(n))) == [Int(n)]
    ensures !v.Nil? && !v.List? ==> Keys(Assign(f, "keys", v)) == [v]
    ensures Assign(f, "key", v).(keysVar := f.keysVar) == f
    ensures Assign(f, "keys", v).(keysVar := f.keysVar) == f
    ensures Keys(Assign(f, "keys", List(Keys(f)))) == Keys(f)
  {
  }

  /** A host parsed from a string has no keys and no password; the SSH
      options carry the parsed user and port. */
  lemma NetsshOptionsOfParsedHost(s: string, login: Option<string>)
    requires Parse(s, login).Success?
    ensures var a := Parse(s, login).value.attributes;
      NetsshOptions(NewHost(HostString(s), login).value)
        == NetSshOptions([], Int(a.port), OptionValue(a.user), Nil)
  {
  }
}

=== FILE: host_scenarios.dfy ===
/** Named example host strings and options, worked through the model:
    each shape first for any parts, then for the example itself. */
module HostScenarios {
  import opened Wrappers
  import opened RubyString
  import opened HostParsers
  import opened ParserProperties
  import opened Hosts
  import opened HostProperties
  import opened BracketedIPv6

  /** `"example.com"` is a bare host name: login name, port 22. */
  lemma PlainHostName(login: Option<string>)
    ensures NewHost(HostString("example.com"), login)
         == Success(Unset.(user := OptionValue(login), hostname := Str("example.com"), port := Int(22)))
  {
    ParseSimple("example.com", login);
  }

  /** A host name free of `:`, `@`, `|` and brackets, a `:` and digits:
      login name, host and port. */
  lemma HostNameAndPortShape(h: string, d: string, login: Option<string>)
    requires NoneOf(h, {':', '@', '|', '[', ']'}) && AllDigits(d) && d != ""
    ensures NewHost(HostString(h + ":" + d), login)
         == Success(Unset.(user := OptionValue(login), hostname := Str(h), port := Int(ToI(d))))
  {
    var s := h + ":" + d;
    assert s == h + [':'] + d;
    assert s[|h|] == ':';
    assert forall k :: 0 <= k < |s| ==> s[k] in h || s[k] == ':' || s[k] in d;
    assert HostWithPortSuitable(s) && !SimpleSuitable(s);
    assert NoneOf(h, {':'});
    DigitsHaveNoSeparator(d);
    FieldsAppend(h, ':', d, {':'});
    FieldsOfPlain(h, {':'});
    FieldsOfPlain(d, {':'});
    assert Fields(s, {':'}) == [h, d];
    assert Split(s, {':'}) == [h, d];
    ParseHostWithPort(s, login);
    assert Parse(s, login) == Success(Parsed(Attributes(login, Some(h), ToI(d)), s));
  }

  /** `"example.com:2222"`: login name, host and port. */
  lemma HostNameAndPort(login: Option<string>)
    ensures NewHost(HostString("example.com:2222"), login)
         == Success(Unset.(user := OptionValue(login), hostname := Str("example.com"), port := Int(2222)))
  {
    var h, d := "example.com", "2222";
    var cls := {':', '@', '|', '[', ']'};
    assert NoneOf(h, cls) by {
      forall k | 0 <= k < |h| ensures h[k] !in cls { assert h[k] in h; }
    }
    assert AllDigits(d);
    assert h + ":" + d == "example.com:2222";
    assert IntToDecimal(2222) == d;
    ToIOfDecimal(2222);
    HostNameAndPortShape(h, d, login);
  }

  /** A user and a non-empty host name, neither holding `:` or `@`, joined
      by `@`: that user and host, port 22. */
  lemma UserAndHostNameShape(u: string, h: string, login: Option<string>)
    requires NoneOf(u, UserHostSeparators) && NoneOf(h, UserHostSeparators) && h != ""
    ensures NewHost(HostString(u + "@" + h), login)
         == Success(Unset.(user := Str(u), hostname := Str(h), port := Int(DefaultPort)))
  {
    var s := u + "@" + h;
    assert s == u + ['@'] + h;
    assert s[|u|] == '@';
    assert forall k :: 0 <= k < |s| ==> s[k] in u || s[k] == '@' || s[k] in h;
    assert HostWithUsernameSuitable(s);
    assert NoneOf(u, {'@'}) && NoneOf(h, {'@'});
    FieldsAppend(u, '@', h, {'@'});
    FieldsOfPlain(u, {'@'});
    FieldsOfPlain(h, {'@'});
    assert Fields(s, {'@'}) == [u, h];
    assert Split(s, {'@'}) == [u, h];
    ParseHostWithUsername(s, login);
  }

  /** `"deploy@example.com"`: user and host, port 22. */
  lemma UserAndHostName(login: Option<string>)
    ensures NewHost(HostString("deploy@example.com"), login)
         == Success(Unset.(user := Str("deploy"), hostname := Str("example.com"), port := Int(22)))
  {
    var u, h := "deploy", "example.com";
    NoneOfPair(u, ':', '@');
    NoneOfPair(h, ':', '@');
    assert u + "@" + h == "deploy@example.com";
    UserAndHostNameShape(u, h, login);
  }

  lemma UserHostNameAndPortParts()
    ensures "deploy" + "@" + "example.com" + ":" + "2222" == "deploy@example.com:2222"
  {
  }

  /** `"deploy@example.com:2222"`: user, host and port. */
  lemma UserHostNameAndPort(login: Option<string>)
    ensures NewHost(HostString("deploy@example.com:2222"), login)
         == Success(Unset.(user := Str("deploy"), hostname := Str("example.com"), port := Int(2222)))
  {
    var u, h, d := "deploy", "example.com", "2222";
    NoneOfPair(u, ':', '@');
    NoneOfPair(h, ':', '@');
    assert '\n' !in h;
    assert AllDigits(d);
    assert IntToDecimal(2222) == d;
    ToIOfDecimal(2222);
    UserHostNameAndPortParts();
    UserHostPortParses(u, h, d, login);
  }

  /** `"[fe80::1]:2222"`: the IPv6 test matches the `::1` inside the
      address; the brackets go, from the caller's string too; the host is
      `fe80::1` and the port 2222. */
  lemma BracketedIPv6Address(login: Option<string>)
    ensures Parse("[fe80::1]:2222", login)
         == Success(Parsed(Attributes(login, Some("fe80::1"), 2222), "fe80::1:2222"))
  {
    var v, d := "fe80::1", "2222";
    var s := "[fe80::1]:2222";
    assert BracketableAddress(v) by {
      forall i | 0 <= i < |v| ensures v[i] !in NotInAddress {
        assert v[i] in v;
      }
    }
    assert AllDigits(d);
    assert "[" + v + "]:" + d == s;
    assert v + ":" + d == "fe80::1:2222";
    assert IPv6PortMatchAt(s, 6);
    assert IntToDecimal(2222) == d;
    ToIOfDecimal(2222);
    BracketedAddressAsWritten(v, d, login);
  }

  /** `"a|b"` suits no parser. */
  lemma UnparsableString(login: Option<string>)
    ensures NewHost(HostString("a|b"), login) == Failure(UnparsableHostString("a|b"))
  {
    var s := "a|b";
    PatternsNeedSeparators(s);
    assert '@' !in s && ':' !in s && '|' in s;
    UnparsableIffNoneSuitable(s, login);
  }

  /** `{nope: 1}` names no setter. */
  lemma UnknownOption(login: Option<string>)
    ensures NewHost(OptionsHash([("nope", Int(1))]), login) == Failure(UnknownHostProperty("nope"))
  {
  }
}

=== FILE: parser_properties.dfy ===
/** What the choice of parser and each parser's readers guarantee. */
module ParserProperties {
  import opened Wrappers
  import opened RubyString
  import opened HostParsers

  /** The position of a parser's first entry in `ParserList`. */
  function Priority(p: Parser): nat {
    match p
    case Simple => 0
    case HostWithPort => 1
    case HostWithUsernameAndPort => 2
    case IPv6HostWithPort => 3
    case HostWithUsername => 4
  }

  // ---------------------------------------------------------------------
  // Dispatch
  // ---------------------------------------------------------------------

  /** The parser used is the suitable one of highest priority. */
  lemma ChooseParserIsFirstSuitable(s: string, p: Parser)
    ensures ChooseParser(s) == Some(p)
        <==> Suitable(p, s) && forall q :: Priority(q) < Priority(p) ==> !Suitable(q, s)
  {
    var ps := ParserList;
    var r := SelectSuitable(ps, s);
    assert forall q :: ps[Priority(q)] == q;
    if ChooseParser(s) == Some(p) {
      var i :| FirstSuitableAt(ps, s, i) && ps[i] == r[0];
      assert i == Priority(p);
      forall q | Priority(q) < Priority(p)
        ensures !Suitable(q, s)
      {
        assert ps[Priority(q)] == q;
      }
    }
    if Suitable(p, s) && forall q :: Priority(q) < Priority(p) ==> !Suitable(q, s) {
      assert p in r;
      var i :| FirstSuitableAt(ps, s, i) && ps[i] == r[0];
      assert i <= Priority(p);
    }
  }

  /** The two pattern parsers need their separators in the string. */
  lemma PatternsNeedSeparators(s: string)
    ensures HostWithUsernameAndPortSuitable(s) ==> '@' in s && ':' in s
    ensures IPv6HostWithPortSuitable(s) ==> ':' in s
  {
    if HostWithUsernameAndPortSuitable(s) {
      var i, j :| 0 <= i < j < |s| && UserHostPortMatchAt(s, i, j);
      assert s[i] == '@' && s[j] == ':';
    }
    if IPv6HostWithPortSuitable(s) {
      var j :| 0 <= j < |s| && IPv6PortMatchAt(s, j);
      assert s[j] == ':';
    }
  }

  /** Each error message ends with the string or key at fault, and the two
      kinds of message never coincide. */
  lemma MessagesNameTheInput(s: string, key: string)
    ensures var m := Message(UnparsableHostString(s)); |m| >= |s| && m[|m| - |s|..] == s
    ensures var m := Message(UnknownHostProperty(key)); |m| >= |key| && m[|m| - |key|..] == key
    ensures Message(UnparsableHostString(s)) != Message(UnknownHostProperty(key))
  {
    assert Message(UnparsableHostString(s))[0] == 'C';
    assert Message(UnknownHostProperty(key))[0] == 'U';
  }

  /** The parser used is suitable. */
  lemma ChosenIsSuitable(s: string, p: Parser)
    requires ChooseParser(s) == Some(p)
    ensures Suitable(p, s)
  {
    assert p in SelectSuitable(ParserList, s);
  }

  /** Parsing fails exactly when no parser is suitable, and the error carries
      the string. */
  lemma UnparsableIffNoneSuitable(s: string, login: Option<string>)
    ensures Parse(s, login).Failure? <==> forall p :: !Suitable(p, s)
    ensures Parse(s, login).Failure? ==> Parse(s, login).error == UnparsableHostString(s)
  {
    var ps := ParserList;
    forall p
      ensures p in ps
    {
      assert ps[Priority(p)] == p;
    }
    if forall p :: !Suitable(p, s) {
      assert SelectSuitable(ps, s) == [];
    }
  }

  /** Selecting from two lists one after the other is selecting from each. */
  lemma {:induction false} SelectSuitableAppend(a: seq<Parser>, b: seq<Parser>, s: string)
    ensures SelectSuitable(a + b, s) == SelectSuitable(a, s) + SelectSuitable(b, s)
    decreases |a|
  {
    if |a| == 0 {
      assert a + b == b;
    } else {
      assert (a + b)[1..] == a[1..] + b;
      SelectSuitableAppend(a[1..], b, s);
    }
  }

  /** The sixth entry of the list never decides anything: dropping it leaves
      the parser used unchanged. */
  lemma LastEntryIsRedundant(s: string)
    ensures First(SelectSuitable(ParserList, s)) == First(SelectSuitable(ParserList[..5], s))
  {
    var ps5 := ParserList[..5];
    assert ParserList == ps5 + [HostWithUsernameAndPort];
    SelectSuitableAppend(ps5, [HostWithUsernameAndPort], s);
    if SelectSuitable(ps5, s) == [] {
      assert ps5[2] == HostWithUsernameAndPort;
      assert !Suitable(HostWithUsernameAndPort, s);
    }
  }

  /** A `Host` built from a string gets the string it was given back only
      changed by the IPv6 parser, which deletes the brackets. */
  lemma HostStringChangedOnlyByIPv6(s: string, login: Option<string>)
    requires Parse(s, login).Success?
    ensures Parse(s, login).value.hostString
         == if ChooseParser(s) == Some(IPv6HostWithPort) then DeleteChars(s, Brackets) else s
  {
  }

  // ---------------------------------------------------------------------
  // The regular expressions
  // ---------------------------------------------------------------------

  /** An `@` at `i` with no newline between it and position `k`: what `@.*`
      can reach before `k`. */
  predicate ArmedAt(s: string, i: int, k: int)
    requires 0 <= k <= |s|
  {
    0 <= i < k && s[i] == '@' && '\n' !in s[i + 1..k]
  }

  /** A left-to-right scan for `/@.*:\d+/` that remembers whether an `@`
      has been seen since the last newline. */
  method MatchUserHostPort(s: string) returns (found: bool)
    ensures found <==> HostWithUsernameAndPortSuitable(s)
  {
    var armed := false;
    var k := 0;
    while k < |s|
      invariant 0 <= k <= |s|
      invariant armed <==> exists i | 0 <= i < k :: ArmedAt(s, i, k)
      invariant forall i, j | 0 <= i < j < k :: !UserHostPortMatchAt(s, i, j)
    {
      if armed && s[k] == ':' && k + 1 < |s| && IsDigit(s[k + 1]) {
        var i :| 0 <= i < k && ArmedAt(s, i, k);
        assert UserHostPortMatchAt(s, i, k);
        return true;
      }
      forall i | 0 <= i < k
        ensures UserHostPortMatchAt(s, i, k) ==> ArmedAt(s, i, k)
      {
      }
      assert forall i | 0 <= i < k :: !UserHostPortMatchAt(s, i, k);
      ghost var next := k + 1;
      forall i | 0 <= i < k
        ensures ArmedAt(s, i, next) <==> ArmedAt(s, i, k) && s[k] != '\n'
      {
        assert s[i + 1..next] == s[i + 1..k] + [s[k]];
      }
      assert ArmedAt(s, k, next) <==> s[k] == '@' by {
        assert s[k + 1..next] == [];
      }
      if s[k] == '\n' {
        armed := false;
        assert forall i | 0 <= i < next :: !ArmedAt(s, i, next);
      } else if s[k] == '@' {
        armed := true;
        assert ArmedAt(s, k, next);
      } else {
        assert armed <==> exists i | 0 <= i < next :: ArmedAt(s, i, next);
      }
      k := k + 1;
    }
    return false;
  }

  /** `/[a-fA-F0-9:]+:\d+/` matched literally: a non-empty run of hex digits
      and colons from `k` to `j`, then `:` and a digit. */
  predicate IPv6RegexMatch(s: string, k: int, j: int) {
    && 0 <= k < j
    && j + 1 < |s|
    && (forall m :: k <= m < j ==> IsHexOrColon(s[m]))
    && s[j] == ':'
    && IsDigit(s[j + 1])
  }

  /** The literal reading of the IPv6 pattern and the one-character reading
      used by `IPv6HostWithPortSuitable` accept the same strings. */
  lemma IPv6PatternNeedsOneCharacter(s: string)
    ensures (exists k, j | 0 <= k < j < |s| :: IPv6RegexMatch(s, k, j))
        <==> IPv6HostWithPortSuitable(s)
  {
    if IPv6HostWithPortSuitable(s) {
      var j :| 0 <= j < |s| && IPv6PortMatchAt(s, j);
      assert IPv6RegexMatch(s, j - 1, j);
    }
    if exists k, j | 0 <= k < j < |s| :: IPv6RegexMatch(s, k, j) {
      var k, j :| 0 <= k < j < |s| && IPv6RegexMatch(s, k, j);
      assert IPv6PortMatchAt(s, j);
    }
  }

  // ---------------------------------------------------------------------
  // The parsers, when chosen
  // ---------------------------------------------------------------------

  /** A string without `:`, `|` or `@` is the host name itself; the user is
      the login name and the port 22. */
  lemma ParseSimple(s: string, login: Option<string>)
    requires SimpleSuitable(s)
    ensures ChooseParser(s) == Some(Simple)
    ensures Parse(s, login) == Success(Parsed(Attributes(login, Some(s), DefaultPort), s))
  {
    ChooseParserIsFirstSuitable(s, Simple);
  }

  /** Without `@`, `|`, `[` or `]` (and so, as Simple did not apply, with a
      `:`), the host name is the text before the first `:` and the port is
      read from the last non-empty `:`-field. */
  lemma ParseHostWithPort(s: string, login: Option<string>)
    requires !SimpleSuitable(s) && HostWithPortSuitable(s)
    ensures ':' in s
    ensures ChooseParser(s) == Some(HostWithPort)
    ensures var fs := Split(s, {':'});
      Parse(s, login) == Success(Parsed(Attributes(login, First(fs), OptionToI(Last(fs))), s))
    ensures var fs := Split(s, {':'});
      && (fs == [] <==> forall i :: 0 <= i < |s| ==> s[i] == ':')
      && (fs != [] ==> fs[0] <= s && ':' !in fs[0] && s[|fs[0]|] == ':')
      && (fs != [] ==> ':' !in fs[|fs| - 1] && fs[|fs| - 1] != "")
  {
    ChooseParserIsFirstSuitable(s, HostWithPort);
    var fs := Split(s, {':'});
    SplitFields(s, {':'});
    if fs != [] {
      FirstField(s, {':'});
      assert fs[0] == Fields(s, {':'})[0];
      assert NoneOf(fs[0], {':'});
      assert NoneOf(fs[|fs| - 1], {':'});
    }
  }

  /** The parser `Host#initialize` uses produces the attributes. */
  lemma ParseUses(s: string, login: Option<string>, p: Parser)
    requires ChooseParser(s) == Some(p)
    ensures Parse(s, login)
         == Success(Parsed(AttributesOf(p, s, login).0, AttributesOf(p, s, login).1))
  {
  }

  /** When `/@.*:\d+/` matches, the split on `:` and `@` has three fields. */
  lemma UserHostPortFields(s: string)
    requires HostWithUsernameAndPortSuitable(s)
    ensures |Split(s, UserHostSeparators)| >= 3
  {
    var i, j :| 0 <= i < j < |s| && UserHostPortMatchAt(s, i, j);
    var seps := UserHostSeparators;
    var a, m, b := s[..i], s[i + 1..j], s[j + 1..];
    assert s == a + ['@'] + (m + [':'] + b);
    FieldsAppend(a, '@', m + [':'] + b, seps);
    FieldsAppend(m, ':', b, seps);
    FieldsHeadNonEmpty(b, seps);
    var all := Fields(s, seps);
    assert all == Fields(a, seps) + Fields(m, seps) + Fields(b, seps);
    var k := |Fields(a, seps)| + |Fields(m, seps)|;
    assert all[k] == Fields(b, seps)[0];
    DropTrailingKeeps(all, k);
  }

  /** With an `@` followed later on the same line by `:` and a digit, this
      parser is used whatever else the string holds; the split on `:` and
      `@` then has at least three fields, which give user, host name and
      port, and the first two hold neither separator. */
  lemma ParseHostWithUsernameAndPort(s: string, login: Option<string>)
    requires HostWithUsernameAndPortSuitable(s)
    ensures ChooseParser(s) == Some(HostWithUsernameAndPort)
    ensures var fs := Split(s, UserHostSeparators);
      && |fs| >= 3
      && Parse(s, login) == Success(Parsed(Attributes(Some(fs[0]), Some(fs[1]), ToI(fs[2])), s))
      && NoneOf(fs[0], UserHostSeparators) && NoneOf(fs[1], UserHostSeparators)
      && fs[0] <= s && s[|fs[0]|] in UserHostSeparators
  {
    assert '@' in s;
    ChooseParserIsFirstSuitable(s, HostWithUsernameAndPort);
    ParseUses(s, login, HostWithUsernameAndPort);
    UserHostPortFields(s);
    var seps := UserHostSeparators;
    var fs := Split(s, seps);
    SplitFields(s, seps);
    FirstField(s, seps);
    assert fs[0] == Fields(s, seps)[0];
    assert NoneOf(fs[0], seps) && NoneOf(fs[1], seps);
  }

  /** When the IPv6 pattern matches, the bracket-free string splits on `:`
      into at least two fields. */
  lemma IPv6Fields(s: string)
    requires IPv6HostWithPortSuitable(s)
    ensures |Split(DeleteChars(s, Brackets), {':'})| >= 2
  {
    var j :| 0 <= j < |s| && IPv6PortMatchAt(s, j);
    var t := DeleteChars(s, Brackets);
    KeptNeighbours(s, Brackets, j);
    var a, b := DeleteChars(s[..j], Brackets), DeleteChars(s[j + 2..], Brackets);
    assert t == a + [':'] + ([s[j + 1]] + b);
    FieldsAppend(a, ':', [s[j + 1]] + b, {':'});
    FieldsHeadNonEmpty([s[j + 1]] + b, {':'});
    var all := Fields(t, {':'});
    assert all[|Fields(a, {':'})|] != "";
    DropTrailingKeeps(all, |Fields(a, {':'})|);
  }

  /** Splitting on `:` and joining all fields but the last gives the text
      before the last field; only `:` follows that field. */
  lemma AllButLastField(t: string)
    requires |Split(t, {':'})| >= 2
    ensures var fs := Split(t, {':'});
      var host := Join(AllButLast(fs), ':');
      && host + [':'] + fs[|fs| - 1] <= t
      && (forall i :: |host| + 1 + |fs[|fs| - 1]| <= i < |t| ==> t[i] == ':')
      && ':' !in fs[|fs| - 1] && fs[|fs| - 1] != ""
  {
    var fs := Split(t, {':'});
    SplitFields(t, {':'});
    assert NoneOf(fs[|fs| - 1], {':'});
    SplitJoin(t, ':');
    JoinLast(fs, ':');
  }

  /** The IPv6 parser is used when its pattern matches and neither of the
      three parsers before it is suitable. */
  lemma IPv6HostWithPortChosen(s: string)
    ensures ChooseParser(s) == Some(IPv6HostWithPort)
        <==> && IPv6HostWithPortSuitable(s)
             && !SimpleSuitable(s) && !HostWithPortSuitable(s)
             && !HostWithUsernameAndPortSuitable(s)
  {
    ChooseParserIsFirstSuitable(s, IPv6HostWithPort);
    assert Priority(Simple) < Priority(IPv6HostWithPort);
    assert Priority(HostWithPort) < Priority(IPv6HostWithPort);
    assert Priority(HostWithUsernameAndPort) < Priority(IPv6HostWithPort);
  }

  /** The IPv6 parser deletes every `[` and `]` first; the host name is then
      everything before the last non-empty `:`-field, holds no bracket, and
      the port is read from that field. */
  lemma ParseIPv6HostWithPort(s: string, login: Option<string>)
    requires ChooseParser(s) == Some(IPv6HostWithPort)
    ensures var t := DeleteChars(s, Brackets);
      var fs := Split(t, {':'});
      var host := Join(AllButLast(fs), ':');
      && |fs| >= 2
      && Parse(s, login) == Success(Parsed(Attributes(login, Some(host), ToI(fs[|fs| - 1])), t))
      && NoneOf(host, Brackets)
      && host + [':'] + fs[|fs| - 1] <= t
      && (forall i :: |host| + 1 + |fs[|fs| - 1]| <= i < |t| ==> t[i] == ':')
      && ':' !in fs[|fs| - 1] && fs[|fs| - 1] != ""
  {
    ChosenIsSuitable(s, IPv6HostWithPort);
    ParseUses(s, login, IPv6HostWithPort);
    IPv6Hostname(s);
    var t := DeleteChars(s, Brackets);
    var fs := Split(t, {':'});
    var host := Join(AllButLast(fs), ':');
    assert Hostname(IPv6HostWithPort, s) == (Some(host), t);
    assert Port(IPv6HostWithPort, t) == ToI(fs[|fs| - 1]);
  }

  /** The shape of the IPv6 host name, whenever the pattern matches. */
  lemma IPv6Hostname(s: string)
    requires IPv6HostWithPortSuitable(s)
    ensures var t := DeleteChars(s, Brackets);
      var fs := Split(t, {':'});
      var host := Join(AllButLast(fs), ':');
      && |fs| >= 2
      && NoneOf(host, Brackets)
      && host + [':'] + fs[|fs| - 1] <= t
      && (forall i :: |host| + 1 + |fs[|fs| - 1]| <= i < |t| ==> t[i] == ':')
      && ':' !in fs[|fs| - 1] && fs[|fs| - 1] != ""
  {
    IPv6Fields(s);
    var t := DeleteChars(s, Brackets);
    AllButLastField(t);
    var fs := Split(t, {':'});
    var host := Join(AllButLast(fs), ':');
    forall i | 0 <= i < |host|
      ensures host[i] !in Brackets
    {
      assert host[i] == t[i];
    }
  }

  /** With an `@` and no `:`, the user is the text before the first `@` and
      the host name the last non-empty `@`-field; the port is 22. */
  lemma ParseHostWithUsername(s: string, login: Option<string>)
    requires HostWithUsernameSuitable(s)
    ensures ChooseParser(s) == Some(HostWithUsername)
    ensures var fs := Split(s, {'@'});
      Parse(s, login) == Success(Parsed(Attributes(First(fs), Last(fs), DefaultPort), s))
    ensures var fs := Split(s, {'@'});
      && (fs == [] <==> forall i :: 0 <= i < |s| ==> s[i] == '@')
      && (fs != [] ==> fs[0] <= s && '@' !in fs[0] && s[|fs[0]|] == '@')
      && (fs != [] ==> '@' !in fs[|fs| - 1] && fs[|fs| - 1] != "")
  {
    assert !HostWithUsernameAndPortSuitable(s) && !IPv6HostWithPortSuitable(s);
    ChooseParserIsFirstSuitable(s, HostWithUsername);
    var fs := Split(s, {'@'});
    SplitFields(s, {'@'});
    if fs != [] {
      FirstField(s, {'@'});
      assert fs[0] == Fields(s, {'@'})[0];
      assert NoneOf(fs[0], {'@'});
      assert NoneOf(fs[|fs| - 1], {'@'});
    }
  }
}

=== FILE: ruby_string.dfy ===
/** The handful of Ruby `String` and `Array` operations the host parsers rely
    on: `split` on a character class, `join`, `to_i`, the `gsub!` that deletes
    brackets, and the `%d` rendering of an integer. Strings are `seq<char>`. */
module RubyString {
  import opened Wrappers

  /** `\d` in a Ruby regular expression: an ASCII decimal digit. */
  predicate IsDigit(c: char) {
    '0' <= c <= '9'
  }

  /** `[a-fA-F0-9]`. */
  predicate IsHexDigit(c: char) {
    IsDigit(c) || 'a' <= c <= 'f' || 'A' <= c <= 'F'
  }

  /** The characters `String#to_i` skips before the number. */
  predicate IsSpace(c: char) {
    c == ' ' || c == '\t' || c == '\n' || c == '\U{B}' || c == '\U{C}' || c == '\r'
  }

  /** True when no character of `s` belongs to `cls`. */
  predicate NoneOf(s: string, cls: set<char>) {
    forall i :: 0 <= i < |s| ==> s[i] !in cls
  }

  predicate AllDigits(s: string) {
    forall i :: 0 <= i < |s| ==> IsDigit(s[i])
  }

  /** The string made of `n` copies of `c`. */
  function Repeat(c: char, n: nat): (r: string)
    ensures |r| == n
    ensures forall i :: 0 <= i < n ==> r[i] == c
  {
    if n == 0 then "" else [c] + Repeat(c, n - 1)
  }

  // ---------------------------------------------------------------------
  // Array#first, Array#last, Array#[], Array#[0..-2], Array#join
  // ---------------------------------------------------------------------

  /** `a[k]`: `nil` past the end. */
  function At<T>(a: seq<T>, k: nat): Option<T> {
    if k < |a| then Some(a[k]) else None
  }

  function First<T>(a: seq<T>): Option<T> {
    At(a, 0)
  }

  function Last<T>(a: seq<T>): Option<T> {
    if |a| == 0 then None else Some(a[|a| - 1])
  }

  /** `a[0..-2]`: every element but the last; `[]` for `[]`. */
  function AllButLast<T>(a: seq<T>): (r: seq<T>)
    ensures |a| > 0 ==> |r| == |a| - 1
  {
    if |a| == 0 then [] else a[..|a| - 1]
  }

  /** `fs.join(sep)` for an array of strings. */
  function Join(fs: seq<string>, sep: char): string {
    if |fs| == 0 then ""
    else if |fs| == 1 then fs[0]
    else fs[0] + [sep] + Join(fs[1..], sep)
  }

  // ---------------------------------------------------------------------
  // String#split on a character class (limit 0)
  // ---------------------------------------------------------------------

  /** The pieces of `s` between separator characters, empty pieces included:
      always one more piece than there are separators. */
  function Fields(s: string, seps: set<char>): (fs: seq<string>)
    ensures |fs| >= 1
    decreases |s|
  {
    if |s| == 0 then [""]
    else
      var rest := Fields(s[1..], seps);
      if s[0] in seps then [""] + rest
      else [[s[0]] + rest[0]] + rest[1..]
  }

  /** Drops the empty strings at the end of `fs`, as `split` does. */
  function DropTrailingEmpty(fs: seq<string>): (r: seq<string>)
    ensures r <= fs
    ensures r != [] ==> r[|r| - 1] != ""
    ensures forall k :: |r| <= k < |fs| ==> fs[k] == ""
  {
    if |fs| == 0 || fs[|fs| - 1] != "" then fs
    else DropTrailingEmpty(fs[..|fs| - 1])
  }

  /** `s.split(sep)` / `s.split(/a|b/)`: leading empty fields are kept,
      trailing ones dropped, and a string of separators only gives `[]`. */
  function Split(s: string, seps: set<char>): seq<string> {
    DropTrailingEmpty(Fields(s, seps))
  }

  // ---------------------------------------------------------------------
  // String#gsub!(/\[|\]/, '')
  // ---------------------------------------------------------------------

  /** `s` with every character of `cls` removed, the rest kept in order. */
  function DeleteChars(s: string, cls: set<char>): (r: string)
    ensures NoneOf(r, cls)
    ensures |r| <= |s|
  {
    if |s| == 0 then ""
    else if s[0] in cls then DeleteChars(s[1..], cls)
    else [s[0]] + DeleteChars(s[1..], cls)
  }

  // ---------------------------------------------------------------------
  // String#to_i and the decimal rendering of an Integer
  // ---------------------------------------------------------------------

  function DigitValue(c: char): nat
    requires IsDigit(c)
  {
    c as int - '0' as int
  }

  /** The value of a string of decimal digits; 0 for the empty string. */
  function DecimalValue(ds: string): nat
    requires AllDigits(ds)
  {
    if |ds| == 0 then 0
    else DecimalValue(ds[..|ds| - 1]) * 10 + DigitValue(ds[|ds| - 1])
  }

  function SkipSpace(s: string): (t: string)
    ensures |t| <= |s| && t == s[|s| - |t|..]
    ensures |t| > 0 ==> !IsSpace(t[0])
  {
    if |s| > 0 && IsSpace(s[0]) then SkipSpace(s[1..]) else s
  }

  /** The digits of the longest prefix of `s` shaped like `d(_?d)*`, with the
      underscores left out; empty when `s` does not start with a digit. */
  function LeadingDigits(s: string): (ds: string)
    ensures AllDigits(ds)
    ensures |ds| > 0 <==> |s| > 0 && IsDigit(s[0])
  {
    if |s| == 0 || !IsDigit(s[0]) then ""
    else if |s| >= 3 && s[1] == '_' && IsDigit(s[2]) then [s[0]] + LeadingDigits(s[2..])
    else [s[0]] + LeadingDigits(s[1..])
  }

  /** `String#to_i`: leading white space, an optional sign, then digits
      (single underscores between them allowed); 0 when there are none. */
  function ToI(s: string): int {
    var t := SkipSpace(s);
    if |t| > 0 && t[0] == '-' then -(DecimalValue(LeadingDigits(t[1..])) as int)
    else if |t| > 0 && t[0] == '+' then DecimalValue(LeadingDigits(t[1..]))
    else DecimalValue(LeadingDigits(t))
  }

  /** `nil.to_i` is 0. */
  function OptionToI(o: Option<string>): int {
    match o
    case None => 0
    case Some(s) => ToI(s)
  }

  function DigitChar(d: nat): (c: char)
    requires d < 10
    ensures IsDigit(c) && DigitValue(c) == d
  {
    ('0' as int + d) as char
  }

  /** The decimal digits of `n`, most significant first, no leading zero. */
  function NatToDecimal(n: nat): (s: string)
    ensures |s| >= 1 && AllDigits(s)
  {
    if n < 10 then [DigitChar(n)]
    else NatToDecimal(n / 10) + [DigitChar(n % 10)]
  }

  /** What `sprintf("%d", i)` prints. */
  function IntToDecimal(i: int): (s: string)
    ensures |s| >= 1
    ensures i >= 0 ==> AllDigits(s)
    ensures i < 0 ==> s[0] == '-' && AllDigits(s[1..])
  {
    if i < 0 then "-" + NatToDecimal(-i) else NatToDecimal(i)
  }

  // ---------------------------------------------------------------------
  // Facts about split and join
  // ---------------------------------------------------------------------

  lemma {:induction false} FieldsHaveNoSeparator(s: string, seps: set<char>)
    ensures forall k :: 0 <= k < |Fields(s, seps)| ==> NoneOf(Fields(s, seps)[k], seps)
    decreases |s|
  {
    if |s| > 0 {
      FieldsHaveNoSeparator(s[1..], seps);
    }
  }

  /** No field of a split contains a separator, and the last field is never
      empty; the split is `[]` exactly when `s` is all separators. */
  lemma SplitFields(s: string, seps: set<char>)
    ensures forall k :: 0 <= k < |Split(s, seps)| ==> NoneOf(Split(s, seps)[k], seps)
    ensures Split(s, seps) != [] ==> Last(Split(s, seps)).value != ""
    ensures Split(s, seps) == [] <==> forall i :: 0 <= i < |s| ==> s[i] in seps
  {
    FieldsHaveNoSeparator(s, seps);
    if Split(s, seps) == [] {
      forall i | 0 <= i < |s|
        ensures s[i] in seps
      {
        if s[i] !in seps {
          FieldsAllEmpty(s, seps, i);
        }
      }
    } else if forall i :: 0 <= i < |s| ==> s[i] in seps {
      FieldsOfSeparators(s, seps);
    }
  }

  /** A character that is not a separator lands in a non-empty field. */
  lemma {:induction false} FieldsAllEmpty(s: string, seps: set<char>, i: nat)
    requires i < |s| && s[i] !in seps
    ensures exists k :: 0 <= k < |Fields(s, seps)| && Fields(s, seps)[k] != ""
    ensures Split(s, seps) != []
    decreases |s|
  {
    var fs := Fields(s, seps);
    if i == 0 {
      assert fs[0] != "";
    } else {
      FieldsAllEmpty(s[1..], seps, i - 1);
      var k :| 0 <= k < |Fields(s[1..], seps)| && Fields(s[1..], seps)[k] != "";
      if s[0] in seps {
        assert fs[k + 1] != "";
      } else if k == 0 {
        assert fs[0] != "";
      } else {
        assert fs[k] != "";
      }
    }
    var k :| 0 <= k < |fs| && fs[k] != "";
    DropTrailingKeeps(fs, k);
  }

  lemma {:induction false} FieldsOfSeparators(s: string, seps: set<char>)
    requires forall i :: 0 <= i < |s| ==> s[i] in seps
    ensures forall k :: 0 <= k < |Fields(s, seps)| ==> Fields(s, seps)[k] == ""
    ensures Split(s, seps) == []
    decreases |s|
  {
    if |s| > 0 {
      FieldsOfSeparators(s[1..], seps);
    }
  }

  /** The first field is the text before the first separator. */
  lemma {:induction false} FirstField(s: string, seps: set<char>)
    ensures Fields(s, seps)[0] <= s
    ensures |Fields(s, seps)[0]| < |s| ==> s[|Fields(s, seps)[0]|] in seps
    decreases |s|
  {
    if |s| > 0 && s[0] !in seps {
      FirstField(s[1..], seps);
      assert [s[0]] + s[1..] == s;
    }
  }

  /** Trailing-empty removal never drops a non-empty field. */
  lemma DropTrailingKeeps(fs: seq<string>, k: nat)
    requires k < |fs| && fs[k] != ""
    ensures |DropTrailingEmpty(fs)| > k
  {
  }

  /** Cutting at a separator splits the fields. */
  lemma {:induction false} FieldsAppend(a: string, c: char, b: string, seps: set<char>)
    requires c in seps
    ensures Fields(a + [c] + b, seps) == Fields(a, seps) + Fields(b, seps)
    decreases |a|
  {
    var s := a + [c] + b;
    if |a| == 0 {
      assert s[1..] == b;
    } else {
      assert s[1..] == a[1..] + [c] + b;
      FieldsAppend(a[1..], c, b, seps);
    }
  }

  /** A string without separators is its own single field. */
  lemma {:induction false} FieldsOfPlain(a: string, seps: set<char>)
    requires NoneOf(a, seps)
    ensures Fields(a, seps) == [a]
    decreases |a|
  {
    if |a| > 0 {
      FieldsOfPlain(a[1..], seps);
      assert [a[0]] + a[1..] == a;
    }
  }

  /** A string starting with a non-separator starts with a non-empty field. */
  lemma FieldsHeadNonEmpty(b: string, seps: set<char>)
    requires |b| > 0 && b[0] !in seps
    ensures Fields(b, seps)[0] != ""
  {
  }

  lemma {:induction false} JoinAppend(a: seq<string>, b: seq<string>, c: char)
    requires |a| > 0 && |b| > 0
    ensures Join(a + b, c) == Join(a, c) + [c] + Join(b, c)
    decreases |a|
  {
    if |a| > 1 {
      assert (a + b)[1..] == a[1..] + b;
      JoinAppend(a[1..], b, c);
    }
  }

  lemma {:induction false} JoinOfEmpties(fs: seq<string>, c: char)
    requires |fs| > 0
    requires forall k :: 0 <= k < |fs| ==> fs[k] == ""
    ensures Join(fs, c) == Repeat(c, |fs| - 1)
    decreases |fs|
  {
    if |fs| > 1 {
      JoinOfEmpties(fs[1..], c);
    }
  }

  /** Joining the fields with their single separator gives back the string. */
  lemma {:induction false} JoinFields(s: string, c: char)
    ensures Join(Fields(s, {c}), c) == s
    decreases |s|
  {
    if |s| > 0 {
      var rest := Fields(s[1..], {c});
      JoinFields(s[1..], c);
      if s[0] == c {
        assert Fields(s, {c}) == [""] + rest;
        JoinAppend([""], rest, c);
      } else if |rest| == 1 {
        assert [s[0]] + s[1..] == s;
      } else {
        var fs := Fields(s, {c});
        assert fs[1..] == rest[1..];
        JoinAppend([rest[0]], rest[1..], c);
        assert [rest[0]] + rest[1..] == rest;
        assert [s[0]] + s[1..] == s;
      }
    }
  }

  /** `s.split(c).join(c)` is `s` without its trailing run of `c`. */
  lemma SplitJoin(s: string, c: char)
    ensures Join(Split(s, {c}), c) <= s
    ensures forall i :: |Join(Split(s, {c}), c)| <= i < |s| ==> s[i] == c
  {
    var fs := Fields(s, {c});
    var r := Split(s, {c});
    var tail := fs[|r|..];
    assert fs == r + tail;
    JoinFields(s, c);
    if tail == [] {
      assert r == fs;
    } else if r == [] {
      JoinOfEmpties(fs, c);
    } else {
      JoinAppend(r, tail, c);
      JoinOfEmpties(tail, c);
    }
  }

  /** The last field follows the last separator of the joined string. */
  lemma JoinLast(fs: seq<string>, c: char)
    requires |fs| >= 2
    ensures Join(fs, c) == Join(AllButLast(fs), c) + [c] + fs[|fs| - 1]
  {
    JoinAppend(fs[..|fs| - 1], [fs[|fs| - 1]], c);
    assert fs[..|fs| - 1] + [fs[|fs| - 1]] == fs;
  }

  lemma {:induction false} DeleteCharsAppend(a: string, b: string, cls: set<char>)
    ensures DeleteChars(a + b, cls) == DeleteChars(a, cls) + DeleteChars(b, cls)
    decreases |a|
  {
    if |a| > 0 {
      assert (a + b)[0] == a[0] && (a + b)[1..] == a[1..] + b;
      DeleteCharsAppend(a[1..], b, cls);
    } else {
      assert a + b == b;
    }
  }

  /** Deleting characters keeps every other character, in order: two
      neighbours outside `cls` are still neighbours afterwards. */
  lemma KeptNeighbours(s: string, cls: set<char>, j: nat)
    requires j + 1 < |s| && s[j] !in cls && s[j + 1] !in cls
    ensures DeleteChars(s, cls)
         == DeleteChars(s[..j], cls) + [s[j], s[j + 1]] + DeleteChars(s[j + 2..], cls)
  {
    var pre, mid, post := s[..j], s[j..j + 2], s[j + 2..];
    assert s == pre + (mid + post);
    DeleteCharsAppend(pre, mid + post, cls);
    DeleteCharsAppend(mid, post, cls);
    assert mid[1..] == [s[j + 1]];
    assert DeleteChars(mid, cls) == [s[j], s[j + 1]];
    assert DeleteChars(s, cls) == DeleteChars(pre, cls) + [s[j], s[j + 1]] + DeleteChars(post, cls);
  }

  /** Two characters absent from a string: none of `{a, b}` occurs in it. */
  lemma NoneOfPair(s: string, a: char, b: char)
    requires a !in s && b !in s
    ensures NoneOf(s, {a, b})
  {
    forall i | 0 <= i < |s|
      ensures s[i] != a && s[i] != b
    {
      assert s[i] in s;
    }
  }

  /** A string without characters of `cls` is left unchanged. */
  lemma {:induction false} DeleteCharsNoop(s: string, cls: set<char>)
    requires NoneOf(s, cls)
    ensures DeleteChars(s, cls) == s
    decreases |s|
  {
    if |s| > 0 {
      DeleteCharsNoop(s[1..], cls);
      assert [s[0]] + s[1..] == s;
    }
  }

  // ---------------------------------------------------------------------
  // Facts about to_i
  // ---------------------------------------------------------------------

  lemma {:induction false} LeadingDigitsOfDigits(ds: string)
    requires AllDigits(ds)
    ensures LeadingDigits(ds) == ds
    decreases |ds|
  {
    if |ds| > 0 {
      LeadingDigitsOfDigits(ds[1..]);
      assert [ds[0]] + ds[1..] == ds;
    }
  }

  lemma {:induction false} DecimalValueOfDecimal(n: nat)
    ensures DecimalValue(NatToDecimal(n)) == n
    decreases n
  {
    if n >= 10 {
      DecimalValueOfDecimal(n / 10);
      var s := NatToDecimal(n);
      assert s[..|s| - 1] == NatToDecimal(n / 10);
    }
  }

  /** The decimal digits of `n` read back as `n`. */
  lemma ToIOfNat(n: nat)
    ensures ToI(NatToDecimal(n)) == n
  {
    var s := NatToDecimal(n);
    assert IsDigit(s[0]);
    assert !IsSpace(s[0]) && s[0] != '-' && s[0] != '+';
    assert SkipSpace(s) == s;
    assert ToI(s) == DecimalValue(LeadingDigits(s));
    LeadingDigitsOfDigits(s);
    DecimalValueOfDecimal(n);
  }

  /** `sprintf("%d", i).to_i == i`. */
  lemma ToIOfDecimal(i: int)
    ensures ToI(IntToDecimal(i)) == i
  {
    if i < 0 {
      var s, ds := IntToDecimal(i), NatToDecimal(-i);
      assert s == "-" + ds;
      assert SkipSpace(s) == s;
      assert s[1..] == ds;
      LeadingDigitsOfDigits(ds);
      DecimalValueOfDecimal(-i);
    } else {
      ToIOfNat(i);
    }
  }
}

=== FILE: wrappers.dfy ===
/** Optional values (Ruby's possible `nil`) and results that carry an error
    instead of raising it. */
module Wrappers {

  /** A value that may be absent; `None` stands for Ruby's `nil`. */
  datatype Option<+T> = None | Some(value: T)

  /** The outcome of an operation that either succeeds or raises an error. */
  datatype Result<+R, +E> = Success(value: R) | Failure(error: E)
}
